=== FILE: README.md ===
# MedLex client registry: the rules inside the UI, in Dafny

MedLex is a health-program client registry: a React single-page app (clients,
health programs, enrollments of clients in programs) in front of a small
Express mock back end. It has no algorithmic core; what it does have is a set
of small, sequential rules buried in its components, and this project states
and proves them:

- the three form validators (client registration, program creation,
  enrollment) as pure functions from the form record to an error map, with
  the gate that only a valid form reaches `onSubmit`;
- the `parseInt` the enrollment form applies to its program `<select>`, and
  the `\S+@\S+\.\S+` email test of the client form;
- the case-insensitive substring search of the Clients, Programs and
  Enrollments pages, as a filter over the page's list;
- the list-state updates of the pages (load, create, form toggle, empty-state
  message) and the client-detail page's two-request load;
- the mock server's in-memory client store with its list, find-by-id and
  append routes.

Network calls are replaced by their settled outcome, `Fetched<T>` (`Ok(value)`
or `Failed`), given as a parameter. The clock (today's date for a new
enrollment) and the date reformatting of the client form
(`new Date(d).toISOString()`) are parameters too.

Layout: one module per source component, plus shared modules.

| file | module | models |
|---|---|---|
| base.dfy | `Base` | `Option`, `Fetched`, `Submission` |
| text.dfy | `Text` | `trim`, `toLowerCase`, `includes`, JavaScript whitespace |
| js_number.dfy | `JsNumber` | `parseInt(s)` and `String(n)` |
| email.dfy | `Email` | `/\S+@\S+\.\S+/.test` |
| client_form.dfy | `ClientForm` | src/components/clients/ClientForm.tsx |
| enrollment_form.dfy | `EnrollmentForm` | src/components/enrollments/EnrollmentForm.tsx |
| program_form.dfy | `ProgramForm` | src/components/programs/ProgramForm.tsx |
| search.dfy | `Search` | `Array.prototype.filter` |
| list_page.dfy | `ListPage` | page state shared by Clients, Programs, Enrollments |
| clients_page.dfy | `ClientsPage` | src/pages/Clients.tsx |
| programs_page.dfy | `ProgramsPage` | src/pages/Programs.tsx |
| enrollments_page.dfy | `EnrollmentsPage` | src/pages/Enrollments.tsx |
| status_badge.dfy | `StatusBadge` | the status badge of Enrollments.tsx and ClientDetail.tsx |
| client_detail.dfy | `ClientDetail` | src/pages/ClientDetail.tsx |
| mock_server.dfy | `MockServer` | server.js |

Modelling choices:

- Error maps are keyed by a small datatype per form (`ClientForm.ErrorKey`
  and so on) whose `Name()` is the property name the source uses
  (`"first_name"`, `"program_id"`, ...). The set of possible keys is thus
  fixed by the type: no other key can appear.
- Whitespace is the exact JavaScript set (WhiteSpace plus LineTerminator)
  that both `trim` and `\S` use. Lowering folds ASCII letters only.
- The enrollment form's `program_id` is `Option<int>`, where `None` is `NaN`.
- The enrollment list has no deletion, optimistic update, rollback,
  duplicate-enrollment handling or status normalisation in the code: enrolling
  appends whatever the server returns, and statuses are shown as stored. The
  model follows the code.
- The front end calls `/api/v1/...` and `/api/v1/programs`. The mock server
  serves `/api/...` and `/api/health_programs`. The two are modelled
  separately, as written, and not reconciled.
- The client-detail load is modelled from an arbitrary prior state, because
  the effect re-runs on a change of `id` without resetting the state
  (`ClientDetail.RefetchKeepsEarlierClient`). The stated outcomes are proved
  from the mount state.

## Model

| member | source | states |
|---|---|---|
| `Text.TrimEmptyIffBlank` | src/components/clients/ClientForm.tsx:45-49 | `!x.trim()` holds exactly when every character of `x` is whitespace (the empty string included) |
| `Text.TrimStart` | src/components/clients/ClientForm.tsx:45 | the result is a suffix of the input, the dropped prefix is all whitespace, and the result does not start with whitespace |
| `Text.TrimEnd` | src/components/clients/ClientForm.tsx:45 | the result is a prefix of the input, the dropped suffix is all whitespace, and the result does not end with whitespace |
| `Text.Trim` | src/components/clients/ClientForm.tsx:45 | `trim` keeps one contiguous run of the input that neither starts nor ends with whitespace, and only whitespace lies on either side of it |
| `Text.ToLower` | src/pages/Enrollments.tsx:61-63 | lowering keeps the length and folds each character on its own |
| `Text.ToLowerIdempotent` | src/pages/Enrollments.tsx:63 | lowering an already lowered string changes nothing |
| `Text.ContainsEmpty` | src/pages/Clients.tsx:59-63 | every string includes the empty query |
| `Text.IndexOf` | src/pages/Clients.tsx:60-62 | the scan returns the first position where the query occurs, or -1 exactly when it occurs nowhere |
| `Text.Includes` | src/pages/Clients.tsx:60-62 | the runtime `includes` agrees with the substring predicate used by every filter |
| `JsNumber.DigitRun` | src/components/enrollments/EnrollmentForm.tsx:65 | `parseInt` reads the longest digit prefix: all of it is digits and the next character is not |
| `JsNumber.ParseInt` | src/components/enrollments/EnrollmentForm.tsx:65 | `parseInt` yields a number only when the input contains a decimal digit, a negative number only when it contains a minus sign, and `NaN` for a blank input |
| `JsNumber.NatToString` | src/components/enrollments/EnrollmentForm.tsx:95-99 | an option's value `String(id)` is a non-empty digit string without leading zeros |
| `JsNumber.IntToString` | src/components/enrollments/EnrollmentForm.tsx:96 | `String(n)` starts with a minus sign exactly when `n` is negative, and otherwise holds decimal digits without a leading zero |
| `JsNumber.NatToStringValue` | src/components/enrollments/EnrollmentForm.tsx:95-99 | the digits of `String(n)` denote `n` |
| `JsNumber.ParseIntRoundTrip` | src/components/enrollments/EnrollmentForm.tsx:65 | `parseInt(String(n)) == n` for every integer, negative ones included |
| `JsNumber.ParseIntOfNumeral` | server.js:29 | `parseInt` stops at the first character that cannot continue the numeral, so `String(n) + "abc"` reads as `n`; only for `n == 0` is a suffix starting with `x` or `X` excluded, because `"0x1"` reads as hex |
| `JsNumber.ParseIntEmpty` | src/components/enrollments/EnrollmentForm.tsx:94 | the placeholder option's value `""` parses to `NaN` |
| `JsNumber.ParseIntSkipsSpaces` | server.js:29 | leading whitespace never changes what `parseInt` reads |
| `Email.Matches` | src/components/clients/ClientForm.tsx:51 | a match of `\S+@\S+\.\S+` needs at least five characters, an `@` and a later dot |
| `Email.Test` | src/components/clients/ClientForm.tsx:51 | the scan answers true exactly when the unanchored pattern `\S+@\S+\.\S+` has a match (an `@` and a later dot with non-space around and between them) |
| `Email.AcceptsShortAddress` | src/components/clients/ClientForm.tsx:51 | `a@b.c` matches |
| `Email.RejectsMissingDot` | src/components/clients/ClientForm.tsx:51 | `a@b` does not match |
| `Email.AcceptsEmbeddedAddress` | src/components/clients/ClientForm.tsx:51 | the pattern is unanchored: text and spaces around an address are allowed |
| `Email.RejectsSpaceInDomain` | src/components/clients/ClientForm.tsx:51 | a space between `@` and the dot breaks the match |
| `ClientForm.Validate` | src/components/clients/ClientForm.tsx:42-57 | per key: the name and contact errors appear exactly when the field is blank, the date-of-birth and gender errors exactly when the field is empty, the email error exactly when a non-empty email fails the pattern; each error carries its fixed message |
| `ClientForm.ValidIff` | src/components/clients/ClientForm.tsx:42-57 | the error map is empty exactly when all six rules pass |
| `ClientForm.AddressNotValidated` | src/components/clients/ClientForm.tsx:42-53 | the address never influences validation |
| `ClientForm.EmptyEmailAccepted` | src/components/clients/ClientForm.tsx:51-53 | an empty email never produces an error |
| `ClientForm.SpaceOnlyDateAndGenderPass` | src/components/clients/ClientForm.tsx:45-48 | a single space passes as date of birth and gender, but is rejected as a first name with "First name is required" |
| `ClientForm.Submit` | src/components/clients/ClientForm.tsx:64-77 | submission is blocked with the validation errors exactly when the form is invalid; a valid form reaches `onSubmit` with only the date of birth reformatted, unless the reformatting throws |
| `ClientForm.ButtonStuckIff` | src/components/clients/ClientForm.tsx:64-77 | the `isSubmitting` flag is set before the date reformatting and cleared after `onSubmit`; it ends up set, leaving the button disabled on "Saving...", exactly when a valid form's date cannot be reformatted |
| `ClientForm.SubmittedOnlyWhenValid` | src/components/clients/ClientForm.tsx:64-77 | whatever reaches `onSubmit` has a non-blank first name and equals the form apart from the date of birth |
| `EnrollmentForm.Initial` | src/components/enrollments/EnrollmentForm.tsx:24-28 | the form starts with program 0, today's date and the first status option, "Active" |
| `EnrollmentForm.Validate` | src/components/enrollments/EnrollmentForm.tsx:51-59 | the program error appears exactly when the program is 0 or `NaN`, the date error exactly when the date is empty, each with its fixed message |
| `EnrollmentForm.ValidIff` | src/components/enrollments/EnrollmentForm.tsx:51-59 | the form is valid exactly when a non-zero program and a date are present, whatever the status |
| `EnrollmentForm.StatusNotValidated` | src/components/enrollments/EnrollmentForm.tsx:51-59 | the status never influences validation |
| `EnrollmentForm.InitialRejected` | src/components/enrollments/EnrollmentForm.tsx:24-54 | the untouched form is rejected with "Please select a program" |
| `EnrollmentForm.HandleChange` | src/components/enrollments/EnrollmentForm.tsx:61-67 | only the program input goes through `parseInt`; date and status are stored raw; no other field changes |
| `EnrollmentForm.PlaceholderRejected` | src/components/enrollments/EnrollmentForm.tsx:94 | re-selecting the placeholder option stores `NaN`, which validation rejects |
| `EnrollmentForm.SelectingProgram` | src/components/enrollments/EnrollmentForm.tsx:93-99 | choosing the option of program `id` stores `id`, and the form (with a date) is then valid exactly when `id` is non-zero |
| `EnrollmentForm.StatusStaysSelectable` | src/components/enrollments/EnrollmentForm.tsx:120-130 | edits through the status select keep the status one of Active, Pending, Completed, Suspended |
| `EnrollmentForm.Submit` | src/components/enrollments/EnrollmentForm.tsx:69-77 | `onSubmit` receives the form data unchanged, exactly when it is valid; otherwise the non-empty error map is shown |
| `ProgramForm.Validate` | src/components/programs/ProgramForm.tsx:19-26 | the name error appears exactly when the name is blank, the description error exactly when the description is blank, independently, each with its message |
| `ProgramForm.ValidIff` | src/components/programs/ProgramForm.tsx:19-26 | the form is valid exactly when neither field is blank |
| `ProgramForm.BothErrorsTogether` | src/components/programs/ProgramForm.tsx:21-22 | two blank fields give both errors at once |
| `ProgramForm.Submit` | src/components/programs/ProgramForm.tsx:28-36 | `onSubmit` receives name and description exactly as typed, untrimmed, exactly when neither is blank |
| `ProgramForm.SubmitKeepsSpaces` | src/components/programs/ProgramForm.tsx:34 | surrounding spaces of a valid name reach `onSubmit` |
| `Search.Filter` | src/pages/Clients.tsx:59 | the filtered list holds only elements of the input that pass, holds every passing one, and is no longer than the input |
| `Search.FilterEmbedding` | src/pages/Clients.tsx:59 | the filtered list is the input at strictly increasing positions, and those positions are exactly the ones whose element passes |
| `Search.ShiftEmbedding` | src/pages/Clients.tsx:59 | an order-preserving embedding into the tail of a list extends to the whole list, with or without its head |
| `Search.FilterKeepsAll` | src/pages/Clients.tsx:59 | when every element passes, the filter returns the input |
| `Search.FilterAgrees` | src/pages/Enrollments.tsx:60-66 | two tests that agree on every element give the same filtered list |
| `Search.FilterAppend` | src/pages/Clients.tsx:81 | filtering a list with one more element at the end appends that element to the result exactly when it passes |
| `Search.FilterSameVerdicts` | src/pages/Enrollments.tsx:60-66 | lists whose elements get the same verdicts position by position filter to lists of equal length |
| `ListPage.Mount` | src/pages/Clients.tsx:32-35 | a page starts with no items, loading, an empty query and the form hidden |
| `ListPage.Load` | src/pages/Clients.tsx:38-56 | loading always ends; a successful load replaces the list wholesale, a failed one keeps it |
| `ListPage.Create` | src/pages/Clients.tsx:66-86 | a successful create appends the returned record after the unchanged existing ones and hides the form; a failed create changes nothing |
| `ListPage.ToggleForm` | src/pages/Clients.tsx:130 | the toggle button flips the form's visibility and nothing else |
| `ListPage.SetQuery` | src/pages/Clients.tsx:124 | typing replaces the query and nothing else |
| `ListPage.ToggleTwice` | src/pages/Programs.tsx:123 | pressing the toggle twice restores the page |
| `ListPage.Render` | src/pages/Clients.tsx:145-194 | the page shows loading while loading, the table when rows remain, and otherwise a message chosen only by whether the query is non-empty |
| `ClientsPage.FirstRender` | src/pages/Clients.tsx:32-56 | the first render after the mount-time fetch shows every fetched client in order, or "No clients found..." when the list is empty or the fetch failed |
| `ClientsPage.Matches` | src/pages/Clients.tsx:60-62 | the empty query matches every client, and a query longer than the full name, the email and the contact number matches nothing |
| `ClientsPage.Filtered` | src/pages/Clients.tsx:59-63 | a client is listed exactly when it is in the list and matches on name, email or contact number |
| `ClientsPage.FilteredIsOrderedSubsequence` | src/pages/Clients.tsx:59 | the listed clients are an order-preserving subsequence of all clients, keeping exactly the matching positions |
| `ClientsPage.EmptyQueryKeepsAll` | src/pages/Clients.tsx:59-63 | the empty query lists every client |
| `ClientsPage.OtherFieldsNotSearched` | src/pages/Clients.tsx:59-63 | id, date of birth, gender, address and creation date are not searched |
| `ClientsPage.NameAndEmailIgnoreCase` | src/pages/Clients.tsx:60-61 | for a client without a contact number, lowering the query changes nothing |
| `ClientsPage.ContactMatchIsCaseSensitive` | src/pages/Clients.tsx:62 | the contact number is matched as typed: "AB12" matches contact "AB12" but "ab12" does not |
| `ClientsPage.CreateThenSearch` | src/pages/Clients.tsx:80-82 | after a successful create the search result gains the new client at its end exactly when it matches |
| `ClientsPage.View` | src/pages/Clients.tsx:145-194 | the loading banner shows exactly while loading; the table lists the matching clients in list order, exactly those of the list that match; an empty-state message appears exactly when loading is over and no client matches |
| `ClientsPage.EmptyStateMessages` | src/pages/Clients.tsx:189-191 | "No clients match your search." shows exactly when a non-empty query matches nothing; "No clients found..." shows only when there are no clients |
| `ProgramsPage.Matches` | src/pages/Programs.tsx:55-56 | the empty query matches every program, and a query longer than both name and description matches nothing |
| `ProgramsPage.Filtered` | src/pages/Programs.tsx:54-57 | a program is listed exactly when it is in the list and its lowered name or description includes the lowered query |
| `ProgramsPage.FilteredIsOrderedSubsequence` | src/pages/Programs.tsx:54 | the listed programs are an order-preserving subsequence of all programs, keeping exactly the matching positions |
| `ProgramsPage.EmptyQueryKeepsAll` | src/pages/Programs.tsx:54-57 | the empty query lists every program |
| `ProgramsPage.SearchIgnoresQueryCase` | src/pages/Programs.tsx:55-56 | lowering the query first gives the same list |
| `ProgramsPage.CreateThenSearch` | src/pages/Programs.tsx:74-76 | after a successful create the search result gains the new program at its end exactly when it matches |
| `ProgramsPage.View` | src/pages/Programs.tsx:138-183 | the loading banner shows exactly while loading; the table lists the matching programs in list order, exactly those of the list that match; an empty-state message appears exactly when loading is over and no program matches |
| `ProgramsPage.EmptyStateMessages` | src/pages/Programs.tsx:178-180 | "No programs match your search." shows exactly when a non-empty query matches nothing; "No programs found..." only when there are no programs |
| `EnrollmentsPage.Matches` | src/pages/Enrollments.tsx:61-65 | the empty query matches every enrollment, and a query longer than both the client's full name and the program name matches nothing |
| `EnrollmentsPage.Filtered` | src/pages/Enrollments.tsx:60-66 | an enrollment is listed exactly when it is in the list and its client's lowered "first last" or its program's lowered name includes the lowered query |
| `EnrollmentsPage.FilteredIsOrderedSubsequence` | src/pages/Enrollments.tsx:60 | the listed enrollments are an order-preserving subsequence of all enrollments, keeping exactly the matching positions |
| `EnrollmentsPage.EmptyQueryKeepsAll` | src/pages/Enrollments.tsx:60-66 | the empty query lists every enrollment |
| `EnrollmentsPage.SearchIgnoresQueryCase` | src/pages/Enrollments.tsx:63 | `filter(q) == filter(lower(q))` |
| `EnrollmentsPage.StatusAndDateNotSearched` | src/pages/Enrollments.tsx:60-66 | entries that agree on the client's first and last name and the program name are kept or dropped alike, whatever their ids, dates and statuses, so the result has the same length |
| `EnrollmentsPage.View` | src/pages/Enrollments.tsx:111-162 | the loading banner shows exactly while loading; the table lists the matching enrollments in list order, exactly those of the list that match; an empty-state message appears exactly when loading is over and no enrollment matches |
| `EnrollmentsPage.Badge` | src/pages/Enrollments.tsx:145 | a row's badge is the default one exactly when its status is "Active" |
| `EnrollmentsPage.EmptyStateMessages` | src/pages/Enrollments.tsx:157-159 | "No enrollments match your search." shows exactly when a non-empty query matches nothing; "No enrollments found..." only when there are none |
| `StatusBadge.BadgeVariant` | src/pages/Enrollments.tsx:145 | the badge is "default" exactly when the status is "Active", and "secondary" otherwise |
| `StatusBadge.CaseSensitive` | src/pages/ClientDetail.tsx:229 | "active" in lower case gets the secondary badge |
| `StatusBadge.OnlyActiveIsDefault` | src/components/enrollments/EnrollmentForm.tsx:126-129 | of the four selectable statuses only "Active" gets the default badge |
| `ClientDetail.Mount` | src/pages/ClientDetail.tsx:48-51 | the page starts with no client, no enrollments, loading, and the form hidden |
| `ClientDetail.FetchClientData` | src/pages/ClientDetail.tsx:55-74 | the enrollments are requested only after the client fetch succeeds; a failed client fetch changes nothing but loading; a failed enrollments fetch keeps the earlier list; loading ends on every path |
| `ClientDetail.OnRoute` | src/pages/ClientDetail.tsx:76-79 | data is fetched only when the route has a non-empty `id` |
| `ClientDetail.Render` | src/pages/ClientDetail.tsx:101-115 | the page shows loading while loading, "Client not found" when loading ended without a client, and the profile otherwise |
| `ClientDetail.LoadOutcomes` | src/pages/ClientDetail.tsx:55-79 | from mount the load ends in one of three views: not found (and no enrollments request), the client with no enrollments, or the client with the fetched list as it came |
| `ClientDetail.RefetchKeepsEarlierClient` | src/pages/ClientDetail.tsx:55-79 | a re-run of the effect whose client fetch fails leaves the earlier client's profile on screen |
| `ClientDetail.NoIdNoFetch` | src/pages/ClientDetail.tsx:76-78 | without a route id nothing is requested and the page stays on its loading banner |
| `ClientDetail.Enroll` | src/pages/ClientDetail.tsx:81-99 | a successful enroll appends the returned enrollment after the unchanged existing ones and closes the form; a failed one changes nothing |
| `ClientDetail.ToggleEnrollForm` | src/pages/ClientDetail.tsx:194 | the button flips `showEnrollForm` and nothing else |
| `ClientDetail.EnrollExtendsProfile` | src/pages/ClientDetail.tsx:93-95 | on a shown profile, a successful enroll adds the new row at the bottom of the table |
| `ClientDetail.Badge` | src/pages/ClientDetail.tsx:229 | a row's badge is the default one exactly when its status is "Active" |
| `MockServer.ListClients` | server.js:24-26 | GET of the client list answers 200 with the whole store in insertion order |
| `MockServer.ListPrograms` | server.js:43-45 | GET of the program list answers 200 with the program list |
| `MockServer.FindIndex` | server.js:29 | `find` returns the first client whose id equals the parsed number; `NaN` equals nothing |
| `MockServer.GetClient` | server.js:28-32 | GET by id answers 200 with the first stored client whose id is `parseInt(param)`, or 404 "Client not found" exactly when no stored id equals it |
| `MockServer.PostClient` | server.js:34-41 | POST appends exactly one record after the unchanged existing ones, leaves the programs alone, and answers 201 with it; its id is length + 1 unless the body carries one |
| `MockServer.PositionalIdsUnique` | server.js:13-16 | ids equal to positions 1..n are unique |
| `MockServer.SeedIdsArePositions` | server.js:13-16 | the seed clients have ids 1 and 2 |
| `MockServer.PostKeepsIdsPositional` | server.js:35-39 | a POST without a body id keeps the ids exactly 1..n+1 |
| `MockServer.PostAll` | server.js:34-41 | a run of POSTs keeps earlier records, never touches the programs, and appends one record per body in order, each with its body's fields and the id POST assigns |
| `MockServer.ListAfterPosts` | server.js:24-41 | GET of the list after POSTs from the seed shows the two seed clients, then the posted bodies in order, with ids 3, 4, ... for bodies without an id |
| `MockServer.PostAllKeepsIdsPositional` | server.js:13-41 | any run of POSTs without body ids keeps the ids exactly 1..n |
| `MockServer.GetByPosition` | server.js:28-32 | with positional ids, GET of `String(k)` returns the k-th client |
| `MockServer.BodyIdCanDuplicate` | server.js:35-38 | a body id of 1 creates a second client with id 1, and GET of 1 keeps returning the seed client |
| `MockServer.TrailingTextIgnored` | server.js:29 | GET of `String(k)` followed by text that does not start with a digit (nor, for `k == 0`, with `x` or `X`) is answered like GET of `String(k)` |

## Left out

- HTTP, `fetch`, JSON and Express plumbing (cors, body parser, `listen`, URLs, headers). The helpers in src/services/api.ts only throw on a non-ok status. Every call is modelled by its settled outcome, `Fetched<T>`.
- Asynchrony and React state batching. For example, `handleEnroll` appends to a possibly stale `enrollments` captured by its closure, and two loads started by quick `id` changes can interleave. Every event here is handled to completion before the next.
- Dates and the clock. The default enrollment date comes from the current time, so it is the parameter `today`. The client form's `new Date(d).toISOString().split('T')[0]` is the parameter `toISODate`. It returns `None` when the call throws on an unparsable date. For the `YYYY-MM-DD` value a date input produces, the string is parsed as UTC and comes back unchanged. Any other string is parsed in an implementation-defined way, which the model does not fix. `toLocaleDateString` in the tables is presentation only.
- The `isSubmitting` flags of the program and enrollment forms. Each is set and cleared within one synchronous handler around `onSubmit`, so it never shows. The client form's flag is modelled by `ClientForm.SubmittingAfter`, because a throw from its date reformatting leaves it set.
- The generic `handleChange` of the client form (`[name]: value`). It edits one field, and the model takes the whole form record as input instead.
- Full Unicode case folding. `toLowerCase` is modelled on ASCII letters only.
- JavaScript number precision: `parseInt` results are exact integers here. JavaScript rounds results beyond 2^53.
- JsNumber.IntToString: writes every integer in plain decimal digits. JavaScript's `String(n)` switches to exponent form from 1e21 on, where `parseInt(String(1e21))` is 1, so `JsNumber.ParseIntRoundTrip` holds in JavaScript only below that bound. Program ids stay far below it.
- Non-string JSON values in a POST body, and a non-numeric `id` in a body. Body properties other than `id` are strings, held in `MockServer.Fields`, a map type that cannot hold the key `id`. A body `id` is an integer or absent.
- The program list the enrollment form fetches for its `<select>`, and its loading banner. They only decide which options exist, and `EnrollmentForm.SelectingProgram` covers any option value `String(id)`.
- src/components/ClientEnrollmentForm.tsx and src/components/ClientSearch.tsx. They call API functions that src/services/api.ts does not define, and their logic passes data through. ClientSearch only adds a guard that skips blank queries.
- Optimistic delete, rollback, a pending-delete guard, duplicate-enrollment error reclassification and status normalisation. None of these exists in the code. `deleteEnrollment` in src/services/api.ts is never called.
- Hero, Features, HowItWorks, Navbar, Index and Dashboard, and all JSX and styling: presentational only.

=== FILE: base.dfy ===
/** Small shared datatypes: optional values and the outcome of a network call. */
module Base {

  /** A value that may be absent: JavaScript's `undefined`/`null`, or `NaN` for numbers. */
  datatype Option<+T> = None | Some(value: T)

  /** The outcome of one `fetch`: the parsed JSON payload of an ok response, or
      any failure (non-ok status, network error, malformed JSON). The pages only
      log a failure, so it carries no detail. */
  datatype Fetched<+T> = Ok(value: T) | Failed

  /** What a form's submit handler does: it stops at validation with the error
      map it rendered, or it hands `data` to its `onSubmit` callback, or it
      throws before reaching the callback. */
  datatype Submission<K, +T> =
    | Blocked(errors: map<K, string>)
    | Submitted(data: T)
    | Aborted
}

=== FILE: client_detail.dfy ===
/** The client detail page: the two-request load of a client and its
    enrollments, enrolling from the embedded form, and what the page shows. */
module ClientDetail {
  import opened Base
  import ClientsPage
  import StatusBadge

  type Client = ClientsPage.Client

  datatype Program = Program(id: int, name: string, description: string)

  /** An enrollment as this page lists it, with its program embedded. */
  datatype Enrollment = Enrollment(
    id: int,
    clientId: int,
    programId: int,
    enrollmentDate: string,
    status: string,
    program: Program)

  /** The page's React state; `client == None` is the `null` client. */
  datatype DetailState = DetailState(
    client: Option<Client>,
    enrollments: seq<Enrollment>,
    isLoading: bool,
    showEnrollForm: bool)

  /** The GET requests the load issues, for the route's `id`. */
  datatype Request = GetClient(id: string) | GetClientEnrollments(id: string)

  datatype Loaded = Loaded(state: DetailState, requests: seq<Request>)

  /** The state on mount. */
  function Mount(): (s: DetailState)
    ensures s.client.None? && s.enrollments == [] && s.isLoading && !s.showEnrollForm
  {
    DetailState(None, [], true, false)
  }

  /** `fetchClientData`: fetch the client; only if that succeeds, store it and
      fetch its enrollments; store those if that succeeds. Any failure ends
      in the catch block. Loading ends on every path. `enrollmentsReply` is
      what the second request would return; it is consulted only when the
      second request is made. */
  function FetchClientData(s: DetailState, id: string, clientReply: Fetched<Client>,
                           enrollmentsReply: Fetched<seq<Enrollment>>): (r: Loaded)
    ensures !r.state.isLoading
    ensures r.state.showEnrollForm == s.showEnrollForm
    ensures clientReply.Failed? ==> r.requests == [GetClient(id)] && r.state == s.(isLoading := false)
    ensures clientReply.Ok? ==>
      && r.requests == [GetClient(id), GetClientEnrollments(id)]
      && r.state.client == Some(clientReply.value)
      && r.state.enrollments == (if enrollmentsReply.Ok? then enrollmentsReply.value else s.enrollments)
  {
    match clientReply
    case Failed => Loaded(s.(isLoading := false), [GetClient(id)])
    case Ok(c) =>
      var withClient := s.(client := Some(c));
      match enrollmentsReply
      case Failed => Loaded(withClient.(isLoading := false), [GetClient(id), GetClientEnrollments(id)])
      case Ok(es) => Loaded(withClient.(enrollments := es, isLoading := false), [GetClient(id), GetClientEnrollments(id)])
  }

  /** The effect on `[id]`: data is fetched only when the route has a
      (non-empty, hence truthy) `id`; otherwise nothing happens. */
  function OnRoute(s: DetailState, id: Option<string>, clientReply: Fetched<Client>,
                   enrollmentsReply: Fetched<seq<Enrollment>>): (r: Loaded)
    ensures (id.None? || id == Some("")) ==> r == Loaded(s, [])
    ensures id.Some? && id.value != "" ==> r == FetchClientData(s, id.value, clientReply, enrollmentsReply)
  {
    if id.Some? && id.value != "" then FetchClientData(s, id.value, clientReply, enrollmentsReply)
    else Loaded(s, [])
  }

  datatype View = LoadingView | NotFoundView | ProfileView(client: Client, enrollments: seq<Enrollment>)

  /** What the page renders: "Loading client data...", "Client not found",
      or the profile with its enrollment table. */
  function Render(s: DetailState): (v: View)
    ensures v.LoadingView? <==> s.isLoading
    ensures v.NotFoundView? <==> !s.isLoading && s.client.None?
    ensures v.ProfileView? ==> v.client == s.client.value && v.enrollments == s.enrollments
  {
    if s.isLoading then LoadingView
    else if s.client.None? then NotFoundView
    else ProfileView(s.client.value, s.enrollments)
  }

  /** From mount, the load has exactly three outcomes. A failed client fetch
      asks for no enrollments and shows "Client not found"; a client whose
      enrollments fail to load is shown with none; a full success shows the
      fetched list as it came. */
  lemma LoadOutcomes(id: string, clientReply: Fetched<Client>, enrollmentsReply: Fetched<seq<Enrollment>>)
    requires id != ""
    ensures var r := OnRoute(Mount(), Some(id), clientReply, enrollmentsReply);
      && (clientReply.Failed? ==>
            Render(r.state) == NotFoundView && GetClientEnrollments(id) !in r.requests)
      && (clientReply.Ok? && enrollmentsReply.Failed? ==>
            Render(r.state) == ProfileView(clientReply.value, []))
      && (clientReply.Ok? && enrollmentsReply.Ok? ==>
            Render(r.state) == ProfileView(clientReply.value, enrollmentsReply.value))
  {
  }

  /** The effect re-runs when `id` changes without resetting the state, so a
      failed fetch for the new id leaves the earlier client on screen. */
  lemma RefetchKeepsEarlierClient(s: DetailState, id: string, enrollmentsReply: Fetched<seq<Enrollment>>)
    requires id != "" && Render(s).ProfileView?
    ensures Render(OnRoute(s, Some(id), Failed, enrollmentsReply).state) == Render(s.(isLoading := false))
    ensures Render(OnRoute(s, Some(id), Failed, enrollmentsReply).state).ProfileView?
  {
  }

  /** Without a route id nothing is fetched and the page stays on its
      loading banner. */
  lemma NoIdNoFetch(clientReply: Fetched<Client>, enrollmentsReply: Fetched<seq<Enrollment>>)
    ensures OnRoute(Mount(), None, clientReply, enrollmentsReply).requests == []
    ensures Render(OnRoute(Mount(), None, clientReply, enrollmentsReply).state) == LoadingView
  {
  }

  /** `handleEnroll` settles: the returned enrollment is appended after the
      existing ones and the form closes; a failure changes nothing. */
  function Enroll(s: DetailState, created: Fetched<Enrollment>): (t: DetailState)
    ensures created.Failed? ==> t == s
    ensures created.Ok? ==>
      && |t.enrollments| == |s.enrollments| + 1
      && t.enrollments[..|s.enrollments|] == s.enrollments
      && t.enrollments[|s.enrollments|] == created.value
      && !t.showEnrollForm
      && t.client == s.client && t.isLoading == s.isLoading
  {
    match created
    case Ok(e) => s.(enrollments := s.enrollments + [e], showEnrollForm := false)
    case Failed => s
  }

  /** The "Enroll in Program"/"Cancel" button. */
  function ToggleEnrollForm(s: DetailState): (t: DetailState)
    ensures t.showEnrollForm != s.showEnrollForm
    ensures t.(showEnrollForm := s.showEnrollForm) == s
  {
    s.(showEnrollForm := !s.showEnrollForm)
  }

  /** A successful enroll on a shown profile keeps the profile and adds the
      new row at the bottom of its table. */
  lemma EnrollExtendsProfile(s: DetailState, e: Enrollment)
    requires Render(s).ProfileView?
    ensures Render(Enroll(s, Ok(e))) == ProfileView(s.client.value, s.enrollments + [e])
  {
  }

  /** The badge of one enrollment row. */
  function Badge(e: Enrollment): (v: StatusBadge.Variant)
    ensures v == StatusBadge.Default <==> e.status == "Active"
  {
    StatusBadge.BadgeVariant(e.status)
  }
}

=== FILE: client_form.dfy ===
/** The client registration form: its field-level validation and the rule
    that only a valid form reaches `onSubmit`. */
module ClientForm {
  import opened Base
  import opened Text
  import Email

  /** The form's state. Every field is a string: absent initial values start
      as the empty string. */
  datatype ClientFormData = ClientFormData(
    firstName: string,
    lastName: string,
    dateOfBirth: string,
    gender: string,
    contactNumber: string,
    email: string,
    address: string)

  /** The keys of the error map. The form's `address` field has no key: it is
      never validated. */
  datatype ErrorKey = FirstNameKey | LastNameKey | DateOfBirthKey | GenderKey | ContactNumberKey | EmailKey {
    /** The property name the error object uses. */
    function Name(): string {
      match this
      case FirstNameKey => "first_name"
      case LastNameKey => "last_name"
      case DateOfBirthKey => "date_of_birth"
      case GenderKey => "gender"
      case ContactNumberKey => "contact_number"
      case EmailKey => "email"
    }
  }

  const AllKeys: set<ErrorKey> :=
    {FirstNameKey, LastNameKey, DateOfBirthKey, GenderKey, ContactNumberKey, EmailKey}

  /** The fixed message each rule reports. */
  function Message(k: ErrorKey): string {
    match k
    case FirstNameKey => "First name is required"
    case LastNameKey => "Last name is required"
    case DateOfBirthKey => "Date of birth is required"
    case GenderKey => "Gender is required"
    case ContactNumberKey => "Contact number is required"
    case EmailKey => "Email is invalid"
  }

  /** The test `validate` applies to the field behind key `k`, as written:
      `!x.trim()` for names and contact number, `!x` for date of birth and
      gender, `x && !pattern.test(x)` for the email. */
  predicate Fails(f: ClientFormData, k: ErrorKey) {
    match k
    case FirstNameKey => Trim(f.firstName) == ""
    case LastNameKey => Trim(f.lastName) == ""
    case DateOfBirthKey => f.dateOfBirth == ""
    case GenderKey => f.gender == ""
    case ContactNumberKey => Trim(f.contactNumber) == ""
    case EmailKey => f.email != "" && !Email.Matches(f.email)
  }

  /** `validate`: one entry per violated rule. Names and the contact number
      must be non-blank; date of birth and gender only need to be non-empty;
      a non-empty email must contain a match of `\S+@\S+\.\S+`. */
  function Validate(f: ClientFormData): (errors: map<ErrorKey, string>)
    ensures FirstNameKey in errors <==> IsBlank(f.firstName)
    ensures LastNameKey in errors <==> IsBlank(f.lastName)
    ensures DateOfBirthKey in errors <==> f.dateOfBirth == ""
    ensures GenderKey in errors <==> f.gender == ""
    ensures ContactNumberKey in errors <==> IsBlank(f.contactNumber)
    ensures EmailKey in errors <==> f.email != "" && !Email.Matches(f.email)
    ensures forall k :: k in errors ==> errors[k] == Message(k)
  {
    TrimEmptyIffBlank(f.firstName);
    TrimEmptyIffBlank(f.lastName);
    TrimEmptyIffBlank(f.contactNumber);
    map k | k in AllKeys && Fails(f, k) :: Message(k)
  }

  /** `validate()` returning true: the error map has no keys. */
  predicate IsValid(f: ClientFormData) {
    |Validate(f)| == 0
  }

  /** The form is valid exactly when names and contact number are not blank,
      date of birth and gender are non-empty, and the email is empty or
      matches the pattern. */
  lemma ValidIff(f: ClientFormData)
    ensures IsValid(f) <==>
      && !IsBlank(f.firstName)
      && !IsBlank(f.lastName)
      && f.dateOfBirth != ""
      && f.gender != ""
      && !IsBlank(f.contactNumber)
      && (f.email == "" || Email.Matches(f.email))
  {
    var e := Validate(f);
    if |e| == 0 {
      assert e.Keys == {};
    } else {
      var k :| k in e.Keys;
    }
  }

  /** `address` is never looked at: changing it changes no error. */
  lemma AddressNotValidated(f: ClientFormData, address: string)
    ensures Validate(f.(address := address)) == Validate(f)
  {
    var g := f.(address := address);
    assert forall k :: Fails(g, k) == Fails(f, k);
  }

  /** An empty email never produces an error. */
  lemma EmptyEmailAccepted(f: ClientFormData)
    requires f.email == ""
    ensures EmailKey !in Validate(f)
  {
  }

  /** Date of birth and gender are only checked for emptiness: a single space
      passes, where the same space in a name fails. */
  lemma SpaceOnlyDateAndGenderPass(f: ClientFormData)
    ensures DateOfBirthKey !in Validate(f.(dateOfBirth := " ", gender := " "))
    ensures GenderKey !in Validate(f.(dateOfBirth := " ", gender := " "))
    ensures Validate(f.(firstName := " "))[FirstNameKey] == "First name is required"
  {
    assert IsBlank(" ") by { assert IsSpace(" "[0]); }
  }

  /** `handleSubmit`: `validate()` gates the submission. A valid form is sent
      with its date of birth reformatted by `toISODate` (the
      `new Date(d).toISOString().split('T')[0]` step, which throws on an
      unparsable date: `None`). */
  function Submit(f: ClientFormData, toISODate: string -> Option<string>): (r: Submission<ErrorKey, ClientFormData>)
    ensures r.Blocked? <==> !IsValid(f)
    ensures r.Blocked? ==> r.errors == Validate(f)
    ensures r.Aborted? <==> IsValid(f) && toISODate(f.dateOfBirth).None?
    ensures r.Submitted? ==>
      && IsValid(f)
      && r.data == f.(dateOfBirth := toISODate(f.dateOfBirth).value)
  {
    if !IsValid(f) then Blocked(Validate(f))
    else
      match toISODate(f.dateOfBirth)
      case None => Aborted
      case Some(d) => Submitted(f.(dateOfBirth := d))
  }

  /** The `isSubmitting` flag once `handleSubmit` has run, which disables the
      submit button and labels it "Saving...". A blocked submission leaves it
      as it was and a completed one clears it. The reformatting throws after
      the flag was set and before it is cleared, so an aborted submission
      leaves it set. */
  function SubmittingAfter(before: bool, r: Submission<ErrorKey, ClientFormData>): bool {
    match r
    case Blocked(_) => before
    case Submitted(_) => false
    case Aborted => true
  }

  /** From a fresh form, the button ends up disabled exactly when a valid
      form's date of birth cannot be reformatted. It stays disabled until the
      form is closed and opened again. */
  lemma ButtonStuckIff(f: ClientFormData, toISODate: string -> Option<string>)
    ensures SubmittingAfter(false, Submit(f, toISODate)) <==>
      IsValid(f) && toISODate(f.dateOfBirth).None?
  {
  }

  /** Only a valid form ever reaches `onSubmit`, and every field except the
      date of birth arrives exactly as typed. */
  lemma SubmittedOnlyWhenValid(f: ClientFormData, toISODate: string -> Option<string>)
    ensures Submit(f, toISODate).Submitted? ==>
      && !IsBlank(Submit(f, toISODate).data.firstName)
      && Submit(f, toISODate).data.(dateOfBirth := f.dateOfBirth) == f
  {
    ValidIff(f);
  }
}

=== FILE: clients_page.dfy ===
/** The client registry page: its search filter, client creation and
    empty-state message. */
module ClientsPage {
  import opened Base
  import opened Text
  import Search
  import ListPage

  /** A client as the registry lists it. */
  datatype Client = Client(
    id: int,
    firstName: string,
    lastName: string,
    dateOfBirth: string,
    gender: string,
    contactNumber: Option<string>,
    email: Option<string>,
    address: Option<string>,
    createdAt: string)

  const NoMatchMessage := "No clients match your search."
  const NoClientsMessage := "No clients found. Register your first client!"

  /** The test of `filteredClients`: the lowered full name or the lowered
      email includes the lowered query, or the contact number includes the
      query as typed. An absent email or contact number never matches. */
  predicate Matches(c: Client, query: string): (b: bool)
    ensures query == "" ==> b
    ensures b ==>
      || |query| <= |c.firstName| + 1 + |c.lastName|
      || (c.email.Some? && |query| <= |c.email.value|)
      || (c.contactNumber.Some? && |query| <= |c.contactNumber.value|)
  {
    ContainsEmpty(ToLower(c.firstName + " " + c.lastName));
    var q := ToLower(query);
    || Contains(ToLower(c.firstName + " " + c.lastName), q)
    || (c.email.Some? && Contains(ToLower(c.email.value), q))
    || (c.contactNumber.Some? && Contains(c.contactNumber.value, query))
  }

  /** `filteredClients`. */
  function Filtered(clients: seq<Client>, query: string): (r: seq<Client>)
    ensures forall c :: c in r <==> c in clients && Matches(c, query)
  {
    Search.Filter(clients, c => Matches(c, query))
  }

  /** The filtered list is the input with non-matching clients dropped:
      order is kept and every matching position survives. */
  lemma FilteredIsOrderedSubsequence(clients: seq<Client>, query: string) returns (idx: seq<nat>)
    ensures Search.IsEmbedding(Filtered(clients, query), clients, idx)
    ensures forall i :: 0 <= i < |clients| ==> (i in idx <==> Matches(clients[i], query))
  {
    idx := Search.FilterEmbedding(clients, c => Matches(c, query));
  }

  /** With an empty query every client is listed. */
  lemma EmptyQueryKeepsAll(clients: seq<Client>)
    ensures Filtered(clients, "") == clients
  {
    forall i | 0 <= i < |clients|
      ensures Matches(clients[i], "")
    {
      ContainsEmpty(ToLower(clients[i].firstName + " " + clients[i].lastName));
    }
    Search.FilterKeepsAll(clients, c => Matches(c, ""));
  }

  /** Only name, email and contact number are searched. */
  lemma OtherFieldsNotSearched(c: Client, query: string, id: int, dob: string, gender: string, address: Option<string>, createdAt: string)
    ensures Matches(c.(id := id, dateOfBirth := dob, gender := gender, address := address, createdAt := createdAt), query)
        == Matches(c, query)
  {
  }

  /** Name and email are matched whatever the query's case: for a client
      without a contact number, lowering the query changes nothing... */
  lemma NameAndEmailIgnoreCase(c: Client, query: string)
    requires c.contactNumber.None?
    ensures Matches(c, ToLower(query)) == Matches(c, query)
  {
    ToLowerIdempotent(query);
  }

  /** ...but the contact number is matched case-sensitively, so lowering the
      query can lose a match. */
  lemma ContactMatchIsCaseSensitive()
    ensures Matches(Client(1, "x", "y", "", "", Some("AB12"), None, None, ""), "AB12")
    ensures !Matches(Client(1, "x", "y", "", "", Some("AB12"), None, None, ""), "ab12")
  {
    assert OccursAt("AB12", "AB12", 0);
  }

  /** After a successful create, the search shows the new client at the end
      exactly when it matches the current query. */
  lemma CreateThenSearch(p: ListPage.Page<Client>, c: Client)
    ensures Filtered(ListPage.Create(p, Ok(c)).items, p.query)
         == Filtered(p.items, p.query) + (if Matches(c, p.query) then [c] else [])
  {
    Search.FilterAppend(p.items, c, (x: Client) => Matches(x, p.query));
  }

  /** What the page shows for its current state: the loading banner while
      loading, then the table of exactly the matching clients in list order,
      or an empty state when no client matches. */
  function View(p: ListPage.Page<Client>): (v: ListPage.View<Client>)
    ensures v.Loading? <==> p.isLoading
    ensures v.Table? ==> v.rows == Filtered(p.items, p.query)
    ensures v.Table? ==> forall c :: c in v.rows <==> c in p.items && Matches(c, p.query)
    ensures v.Empty? <==> !p.isLoading && forall c :: c in p.items ==> !Matches(c, p.query)
  {
    var rows := Filtered(p.items, p.query);
    assert rows != [] ==> rows[0] in rows;
    ListPage.Render(p, rows, NoMatchMessage, NoClientsMessage)
  }

  /** The first render after the mount-time fetch: the whole fetched list,
      or the "No clients found" message when it is empty or the fetch failed. */
  lemma FirstRender(fetched: Fetched<seq<Client>>)
    ensures var shown := if fetched.Ok? then fetched.value else [];
      View(ListPage.Load(ListPage.Mount(), fetched))
        == if shown == [] then ListPage.Empty(NoClientsMessage) else ListPage.Table(shown)
  {
    if fetched.Ok? {
      EmptyQueryKeepsAll(fetched.value);
    }
  }

  /** "No clients match" is shown exactly when a typed query matches nothing;
      "No clients found" is shown only when the list itself is empty. */
  lemma EmptyStateMessages(p: ListPage.Page<Client>)
    ensures View(p) == ListPage.Empty(NoMatchMessage) <==>
      !p.isLoading && p.query != "" && Filtered(p.items, p.query) == []
    ensures View(p) == ListPage.Empty(NoClientsMessage) ==> p.items == []
  {
    if p.query == "" {
      EmptyQueryKeepsAll(p.items);
    }
  }
}

=== FILE: email.dfy ===
/** The client form's email check, the unanchored regular expression
    `\S+@\S+\.\S+`, as a string predicate and as a scanner. */
module Email {
  import opened Text

  /** The pattern matches with its `@` at `at` and its `\.` at `dot`: one
      non-space just before the `@`, a non-empty run of non-spaces between
      them, and one non-space just after the dot. Longer `\S+` runs add
      nothing, since the match is unanchored. */
  predicate MatchesAt(s: string, at: int, dot: int) {
    && 1 <= at && at + 1 < dot && dot + 1 < |s|
    && s[at] == '@' && s[dot] == '.'
    && !IsSpace(s[at - 1]) && !IsSpace(s[dot + 1])
    && forall k :: at < k < dot ==> !IsSpace(s[k])
  }

  /** `/\S+@\S+\.\S+/.test(s)`. A match needs at least five characters, an
      `@` and a later dot. */
  predicate Matches(s: string): (b: bool)
    ensures b ==> |s| >= 5
    ensures b ==> exists at, dot :: 0 <= at < dot < |s| && s[at] == '@' && s[dot] == '.'
  {
    exists at, dot | 0 <= at < dot < |s| :: MatchesAt(s, at, dot)
  }

  /** The regular-expression engine's search, done as a scan: for each `@`
      with a non-space before it, walk the run of non-spaces after it looking
      for a dot that is followed by a non-space. */
  method Test(s: string) returns (b: bool)
    ensures b <==> Matches(s)
  {
    var at := 1;
    while at < |s|
      invariant 1 <= at
      invariant forall a, d :: 0 <= a < at && a < d < |s| ==> !MatchesAt(s, a, d)
    {
      if s[at] == '@' && !IsSpace(s[at - 1]) {
        var dot := at + 1;
        while dot < |s| && !IsSpace(s[dot])
          invariant at + 1 <= dot <= |s|
          invariant forall k :: at < k < dot ==> !IsSpace(s[k])
          invariant forall d :: at < d < dot ==> !MatchesAt(s, at, d)
        {
          if s[dot] == '.' && dot > at + 1 && dot + 1 < |s| && !IsSpace(s[dot + 1]) {
            assert MatchesAt(s, at, dot);
            return true;
          }
          dot := dot + 1;
        }
        // Any later dot would need the whitespace at `dot` inside the middle run.
        assert forall d :: dot <= d < |s| ==> !MatchesAt(s, at, d);
      }
      at := at + 1;
    }
    return false;
  }

  /** `a@b.c` is accepted. */
  lemma AcceptsShortAddress()
    ensures Matches("a@b.c")
  {
    assert MatchesAt("a@b.c", 1, 3);
  }

  /** `a@b` has no dot after the `@` part and is rejected. */
  lemma RejectsMissingDot()
    ensures !Matches("a@b")
  {
  }

  /** The match is unanchored: surrounding text, spaces included, is allowed. */
  lemma AcceptsEmbeddedAddress()
    ensures Matches("mail: a@b.c now")
  {
    assert MatchesAt("mail: a@b.c now", 7, 9);
  }

  /** A space between the `@` and the dot breaks the middle `\S+`. */
  lemma RejectsSpaceInDomain()
    ensures !Matches("a@b c.d")
  {
    assert !MatchesAt("a@b c.d", 1, 5) by {
      assert IsSpace("a@b c.d"[3]);
    }
  }
}

=== FILE: enrollment_form.dfy ===
/** The enrollment form: its initial state, `handleChange` (which parses the
    program choice with `parseInt`), `validate`, and the submit gate. */
module EnrollmentForm {
  import opened Base
  import opened JsNumber

  /** The form's state. `programId` is a JavaScript number that may be `NaN`
      (`None`), which `parseInt("")` yields for the placeholder option. */
  datatype EnrollmentFormData = EnrollmentFormData(programId: Option<int>, enrollmentDate: string, status: string)

  /** The three named inputs of the form. */
  datatype Field = ProgramIdField | EnrollmentDateField | StatusField

  datatype ErrorKey = ProgramIdKey | EnrollmentDateKey {
    /** The property name the error object uses. */
    function Name(): string {
      match this
      case ProgramIdKey => "program_id"
      case EnrollmentDateKey => "enrollment_date"
    }
  }

  function Message(k: ErrorKey): string {
    match k
    case ProgramIdKey => "Please select a program"
    case EnrollmentDateKey => "Enrollment date is required"
  }

  /** The options of the status `<select>`, in display order. */
  const Statuses: seq<string> := ["Active", "Pending", "Completed", "Suspended"]

  /** The state on mount: no program chosen (`0`), today's date (supplied by
      the caller in place of the clock), status "Active". */
  function Initial(today: string): (f: EnrollmentFormData)
    ensures f.programId == Some(0) && f.enrollmentDate == today
    ensures f.status in Statuses && f.status == Statuses[0]
  {
    EnrollmentFormData(Some(0), today, "Active")
  }

  /** JavaScript truthiness of a number: 0 and `NaN` are falsy. */
  predicate Truthy(n: Option<int>) {
    n.Some? && n.value != 0
  }

  /** The test `validate` applies to the field behind key `k`: `!x`. */
  predicate Fails(f: EnrollmentFormData, k: ErrorKey) {
    match k
    case ProgramIdKey => !Truthy(f.programId)
    case EnrollmentDateKey => f.enrollmentDate == ""
  }

  /** `validate`: program and date each add an error when falsy; the status
      is never checked. */
  function Validate(f: EnrollmentFormData): (errors: map<ErrorKey, string>)
    ensures ProgramIdKey in errors <==> f.programId == None || f.programId == Some(0)
    ensures EnrollmentDateKey in errors <==> f.enrollmentDate == ""
    ensures forall k :: k in errors ==> errors[k] == Message(k)
  {
    var errors := map k | k in {ProgramIdKey, EnrollmentDateKey} && Fails(f, k) :: Message(k);
    assert ProgramIdKey in errors <==> Fails(f, ProgramIdKey);
    assert EnrollmentDateKey in errors <==> Fails(f, EnrollmentDateKey);
    errors
  }

  predicate IsValid(f: EnrollmentFormData) {
    |Validate(f)| == 0
  }

  /** Valid exactly when a real program (non-zero, not `NaN`) is chosen and a
      date is present, whatever the status. */
  lemma ValidIff(f: EnrollmentFormData)
    ensures IsValid(f) <==> f.programId.Some? && f.programId.value != 0 && f.enrollmentDate != ""
  {
    var e := Validate(f);
    if |e| == 0 {
      assert e.Keys == {};
    } else {
      var k :| k in e.Keys;
    }
  }

  /** The status plays no part in validation. */
  lemma StatusNotValidated(f: EnrollmentFormData, status: string)
    ensures Validate(f.(status := status)) == Validate(f)
  {
  }

  /** The untouched initial form is always rejected for its program. */
  lemma InitialRejected(today: string)
    ensures Validate(Initial(today))[ProgramIdKey] == "Please select a program"
  {
  }

  /** `handleChange`: the program choice goes through `parseInt`, the other
      inputs are stored as the raw string, and no other field moves. */
  function HandleChange(f: EnrollmentFormData, field: Field, value: string): (g: EnrollmentFormData)
    ensures field == ProgramIdField ==> g == f.(programId := ParseInt(value))
    ensures field == EnrollmentDateField ==> g == f.(enrollmentDate := value)
    ensures field == StatusField ==> g == f.(status := value)
  {
    match field
    case ProgramIdField => f.(programId := ParseInt(value))
    case EnrollmentDateField => f.(enrollmentDate := value)
    case StatusField => f.(status := value)
  }

  /** Going back to the placeholder option (`value=""`) makes the program
      `NaN`, which `validate` rejects like the initial 0. */
  lemma PlaceholderRejected(f: EnrollmentFormData)
    ensures HandleChange(f, ProgramIdField, "").programId == None
    ensures ProgramIdKey in Validate(HandleChange(f, ProgramIdField, ""))
  {
    ParseIntEmpty();
  }

  /** Choosing the option of program `id` stores `id` itself (the option's
      value is `String(id)`), and with a date present the form is then valid
      exactly when `id` is non-zero. */
  lemma SelectingProgram(f: EnrollmentFormData, id: int)
    requires f.enrollmentDate != ""
    ensures HandleChange(f, ProgramIdField, IntToString(id)).programId == Some(id)
    ensures IsValid(HandleChange(f, ProgramIdField, IntToString(id))) <==> id != 0
  {
    ParseIntRoundTrip(id);
    ValidIff(HandleChange(f, ProgramIdField, IntToString(id)));
  }

  /** Editing through the status `<select>` keeps the status one of its options. */
  lemma StatusStaysSelectable(f: EnrollmentFormData, field: Field, value: string)
    requires f.status in Statuses
    requires field == StatusField ==> value in Statuses
    ensures HandleChange(f, field, value).status in Statuses
  {
  }

  /** `handleSubmit`: the form data goes to `onSubmit` unchanged, and only
      when it is valid. */
  function Submit(f: EnrollmentFormData): (r: Submission<ErrorKey, EnrollmentFormData>)
    ensures r.Submitted? <==> f.programId.Some? && f.programId.value != 0 && f.enrollmentDate != ""
    ensures r.Submitted? ==> r.data == f
    ensures r.Blocked? ==> r.errors == Validate(f) && |r.errors| > 0
    ensures !r.Aborted?
  {
    ValidIff(f);
    if IsValid(f) then Submitted(f) else Blocked(Validate(f))
  }
}

=== FILE: enrollments_page.dfy ===
/** The all-enrollments page: its search filter, empty-state message and
    status badge. */
module EnrollmentsPage {
  import opened Base
  import opened Text
  import Search
  import ListPage
  import StatusBadge

  /** The client and program an enrollment embeds for display. */
  datatype ClientName = ClientName(id: int, firstName: string, lastName: string)
  datatype ProgramName = ProgramName(id: int, name: string)

  datatype Enrollment = Enrollment(
    id: int,
    clientId: int,
    programId: int,
    enrollmentDate: string,
    status: string,
    client: ClientName,
    program: ProgramName)

  const NoMatchMessage := "No enrollments match your search."
  const NoEnrollmentsMessage := "No enrollments found. Enroll clients in programs to see them here."

  /** The test of `filteredEnrollments`: the lowered "first last" of the
      embedded client, or the lowered program name, includes the lowered query. */
  predicate Matches(e: Enrollment, query: string): (b: bool)
    ensures query == "" ==> b
    ensures b ==>
      || |query| <= |e.client.firstName| + 1 + |e.client.lastName|
      || |query| <= |e.program.name|
  {
    ContainsEmpty(ToLower(e.program.name));
    var search := ToLower(query);
    || Contains(ToLower(e.client.firstName + " " + e.client.lastName), search)
    || Contains(ToLower(e.program.name), search)
  }

  /** `filteredEnrollments`. */
  function Filtered(enrollments: seq<Enrollment>, query: string): (r: seq<Enrollment>)
    ensures forall e :: e in r <==> e in enrollments && Matches(e, query)
  {
    Search.Filter(enrollments, e => Matches(e, query))
  }

  /** The filtered list is the input with non-matching enrollments dropped:
      order is kept and every matching position survives. */
  lemma FilteredIsOrderedSubsequence(enrollments: seq<Enrollment>, query: string) returns (idx: seq<nat>)
    ensures Search.IsEmbedding(Filtered(enrollments, query), enrollments, idx)
    ensures forall i :: 0 <= i < |enrollments| ==> (i in idx <==> Matches(enrollments[i], query))
  {
    idx := Search.FilterEmbedding(enrollments, e => Matches(e, query));
  }

  /** With an empty query every enrollment is listed. */
  lemma EmptyQueryKeepsAll(enrollments: seq<Enrollment>)
    ensures Filtered(enrollments, "") == enrollments
  {
    forall i | 0 <= i < |enrollments|
      ensures Matches(enrollments[i], "")
    {
      ContainsEmpty(ToLower(enrollments[i].program.name));
    }
    Search.FilterKeepsAll(enrollments, e => Matches(e, ""));
  }

  /** Lowering the query first gives the same list: `filter(q) == filter(lower(q))`. */
  lemma SearchIgnoresQueryCase(enrollments: seq<Enrollment>, query: string)
    ensures Filtered(enrollments, ToLower(query)) == Filtered(enrollments, query)
  {
    ToLowerIdempotent(query);
    Search.FilterAgrees(enrollments, e => Matches(e, ToLower(query)), e => Matches(e, query));
  }

  /** Only the client's first and last name and the program's name are
      searched: entries that agree on those three are kept or dropped alike,
      whatever their ids, dates and statuses. */
  lemma StatusAndDateNotSearched(enrollments: seq<Enrollment>, others: seq<Enrollment>, query: string)
    requires |others| == |enrollments|
    requires forall i :: 0 <= i < |enrollments| ==>
      && others[i].client.firstName == enrollments[i].client.firstName
      && others[i].client.lastName == enrollments[i].client.lastName
      && others[i].program.name == enrollments[i].program.name
    ensures |Filtered(others, query)| == |Filtered(enrollments, query)|
    ensures forall i :: 0 <= i < |enrollments| ==>
      (others[i] in Filtered(others, query) <==> enrollments[i] in Filtered(enrollments, query))
  {
    Search.FilterSameVerdicts(enrollments, others, e => Matches(e, query), e => Matches(e, query));
  }

  /** What the page shows for its current state: the loading banner while
      loading, then the table of exactly the matching enrollments in list order,
      or an empty state when no enrollment matches. */
  function View(page: ListPage.Page<Enrollment>): (v: ListPage.View<Enrollment>)
    ensures v.Loading? <==> page.isLoading
    ensures v.Table? ==> v.rows == Filtered(page.items, page.query)
    ensures v.Table? ==> forall e :: e in v.rows <==> e in page.items && Matches(e, page.query)
    ensures v.Empty? <==> !page.isLoading && forall e :: e in page.items ==> !Matches(e, page.query)
  {
    var rows := Filtered(page.items, page.query);
    assert rows != [] ==> rows[0] in rows;
    ListPage.Render(page, rows, NoMatchMessage, NoEnrollmentsMessage)
  }

  /** "No enrollments match" is shown exactly when a typed query matches
      nothing; "No enrollments found" only when the list itself is empty. */
  lemma EmptyStateMessages(page: ListPage.Page<Enrollment>)
    ensures View(page) == ListPage.Empty(NoMatchMessage) <==>
      !page.isLoading && page.query != "" && Filtered(page.items, page.query) == []
    ensures View(page) == ListPage.Empty(NoEnrollmentsMessage) ==> page.items == []
  {
    if page.query == "" {
      EmptyQueryKeepsAll(page.items);
    }
  }

  /** The badge of one row. */
  function Badge(e: Enrollment): (v: StatusBadge.Variant)
    ensures v == StatusBadge.Default <==> e.status == "Active"
  {
    StatusBadge.BadgeVariant(e.status)
  }
}

=== FILE: js_number.dfy ===
/** JavaScript's global `parseInt(string)` with no radix argument, and the
    decimal rendering of an integer that a `<select>` option's `value` gets. */
module JsNumber {
  import opened Base
  import opened Text

  /** `c` is a digit in base `radix` (10, or 16 after a `0x` prefix). */
  predicate IsRadixDigit(c: char, radix: nat) {
    || ('0' <= c <= '9')
    || (radix == 16 && ('a' <= c <= 'f' || 'A' <= c <= 'F'))
  }

  function DigitValue(c: char): nat {
    if '0' <= c <= '9' then c as int - '0' as int
    else if 'a' <= c <= 'f' then c as int - 'a' as int + 10
    else if 'A' <= c <= 'F' then c as int - 'A' as int + 10
    else 0
  }

  predicate AllDigits(s: string, radix: nat) {
    forall i :: 0 <= i < |s| ==> IsRadixDigit(s[i], radix)
  }

  /** Length of the longest prefix of `s` made of base-`radix` digits. */
  function DigitRun(s: string, radix: nat): (n: nat)
    ensures n <= |s|
    ensures AllDigits(s[..n], radix)
    ensures n == |s| || !IsRadixDigit(s[n], radix)
  {
    if |s| > 0 && IsRadixDigit(s[0], radix) then
      var n := 1 + DigitRun(s[1..], radix);
      assert s[..n] == [s[0]] + s[1..][..n - 1];
      n
    else 0
  }

  /** The number the digit string `d` denotes in base `radix`, most significant first. */
  function DigitsValue(d: string, radix: nat): nat {
    if |d| == 0 then 0
    else DigitsValue(d[..|d| - 1], radix) * radix + DigitValue(d[|d| - 1])
  }

  /** `parseInt(s)`: skip leading whitespace, take an optional sign, switch to
      base 16 after `0x`/`0X`, then read the longest run of digits and ignore
      whatever follows. No digits at all gives `NaN`, written `None`. Large
      values are exact here, where JavaScript rounds them to a double. */
  function ParseInt(s: string): (r: Option<int>)
    ensures r.Some? ==> exists k :: 0 <= k < |s| && IsRadixDigit(s[k], 10)
    ensures r.Some? && r.value < 0 ==> '-' in s
    ensures IsBlank(s) ==> r.None?
  {
    var t := TrimStart(s);
    var r := ParseSigned(t);
    assert r.Some? ==> exists k :: 0 <= k < |s| && IsRadixDigit(s[k], 10) by {
      if r.Some? {
        var k :| 0 <= k < |t| && IsRadixDigit(t[k], 10);
        assert s[|s| - |t| + k] == t[k];
      }
    }
    assert r.Some? && r.value < 0 ==> s[|s| - |t|] == '-';
    assert IsBlank(s) ==> t == [] by {
      if |t| > 0 {
        assert t[0] == s[|s| - |t|];
      }
    }
    r
  }

  /** The sign step of `parseInt`, on a string with no leading whitespace. */
  function ParseSigned(t: string): (r: Option<int>)
    ensures r.Some? ==> exists k :: 0 <= k < |t| && IsRadixDigit(t[k], 10)
    ensures r.Some? && r.value < 0 ==> t[0] == '-'
  {
    if |t| > 0 && t[0] == '-' then
      match ParseUnsigned(t[1..])
      case None => None
      case Some(m) => Some(-(m as int))
    else if |t| > 0 && t[0] == '+' then
      match ParseUnsigned(t[1..])
      case None => None
      case Some(m) => Some(m as int)
    else
      match ParseUnsigned(t)
      case None => None
      case Some(m) => Some(m as int)
  }

  /** The radix step of `parseInt`: `0x`/`0X` selects base 16, anything else base 10. */
  function ParseUnsigned(u: string): (r: Option<nat>)
    ensures r.Some? ==> |u| > 0 && IsRadixDigit(u[0], 10)
  {
    if |u| >= 2 && u[0] == '0' && (u[1] == 'x' || u[1] == 'X') then ParseDigits(u[2..], 16)
    else ParseDigits(u, 10)
  }

  /** The digit step of `parseInt`: the value of the longest digit prefix, or
      `NaN` when `v` does not start with a digit. */
  function ParseDigits(v: string, radix: nat): (r: Option<nat>)
    ensures r.Some? ==> |v| > 0 && IsRadixDigit(v[0], radix)
  {
    var n := DigitRun(v, radix);
    assert n > 0 ==> v[..n][0] == v[0];
    if n == 0 then None else Some(DigitsValue(v[..n], radix))
  }

  function DecimalDigit(d: nat): char
    requires d < 10
  {
    ('0' as int + d) as char
  }

  /** The decimal numeral of `n`, without leading zeros. */
  function NatToString(n: nat): (s: string)
    ensures |s| > 0 && AllDigits(s, 10)
    ensures s[0] == '0' ==> n == 0 && |s| == 1
  {
    if n < 10 then [DecimalDigit(n)] else NatToString(n / 10) + [DecimalDigit(n % 10)]
  }

  /** `String(n)` for an integer `n`. */
  function IntToString(n: int): (s: string)
    ensures |s| > 0 && (s[0] == '-' <==> n < 0)
    ensures n < 0 ==> |s| > 1 && AllDigits(s[1..], 10) && s[1] != '0'
    ensures n >= 0 ==> AllDigits(s, 10) && (s[0] == '0' ==> s == "0")
  {
    if n < 0 then "-" + NatToString(-n) else NatToString(n)
  }

  /** Reading back the decimal numeral of `n` gives `n`. */
  lemma {:induction false} NatToStringValue(n: nat)
    ensures DigitsValue(NatToString(n), 10) == n
  {
    if n >= 10 {
      var s := NatToString(n);
      var p := NatToString(n / 10);
      assert s == p + [DecimalDigit(n % 10)];
      assert s[..|s| - 1] == p;
      NatToStringValue(n / 10);
    }
  }

  /** A run of digits followed by a non-digit: the digit run is exactly `d`. */
  lemma DigitRunOfNumeral(d: string, rest: string, radix: nat)
    requires |d| > 0 && AllDigits(d, radix)
    requires rest == [] || !IsRadixDigit(rest[0], radix)
    ensures DigitRun(d + rest, radix) == |d|
    ensures (d + rest)[..|d|] == d
  {
    var s := d + rest;
    var n := DigitRun(s, radix);
  }

  /** `parseInt` reads back `String(n)`, and stops at any suffix that does
      not continue the numeral: `parseInt("2abc")` and `parseInt("5x")` are 2
      and 5. Only after `"0"` may the suffix not start with `x` or `X`, since
      `"0"` followed by `"x1"` reads as hex 1. A
      `<select>` whose options carry `String(id)` therefore hands
      `handleChange` a value that parses to `id`. */
  lemma ParseIntOfNumeral(n: int, rest: string)
    requires rest == [] || !IsRadixDigit(rest[0], 10)
    requires n == 0 && rest != [] ==> rest[0] != 'x' && rest[0] != 'X'
    ensures ParseInt(IntToString(n) + rest) == Some(n)
  {
    var m: nat := if n < 0 then -n else n;
    var u := NatToString(m) + rest;
    ParseUnsignedOfNumeral(m, rest);
    if n < 0 {
      assert IntToString(n) == "-" + NatToString(m);
      assert ("-" + NatToString(m)) + rest == "-" + u;
      ParseSignedNegative(u, m);
    } else {
      assert IntToString(n) == NatToString(m);
      ParseSignedDigits(u, m);
    }
  }

  lemma ParseSignedNegative(u: string, m: nat)
    requires |u| > 0 && IsRadixDigit(u[0], 10) && ParseUnsigned(u) == Some(m)
    ensures ParseInt("-" + u) == Some(-(m as int))
  {
    var s := "-" + u;
    TrimStartKeeps(s);
    assert s[1..] == u;
  }

  lemma ParseSignedDigits(u: string, m: nat)
    requires |u| > 0 && IsRadixDigit(u[0], 10) && ParseUnsigned(u) == Some(m)
    ensures ParseInt(u) == Some(m)
  {
    TrimStartKeeps(u);
  }

  /** A string that starts with a digit or a minus sign has no leading
      whitespace to trim. */
  lemma TrimStartKeeps(s: string)
    requires |s| > 0 && (IsRadixDigit(s[0], 10) || s[0] == '-')
    ensures TrimStart(s) == s
  {
    assert !IsSpace(s[0]);
  }

  lemma ParseUnsignedOfNumeral(m: nat, rest: string)
    requires rest == [] || !IsRadixDigit(rest[0], 10)
    requires m == 0 && rest != [] ==> rest[0] != 'x' && rest[0] != 'X'
    ensures ParseUnsigned(NatToString(m) + rest) == Some(m)
    ensures IsRadixDigit((NatToString(m) + rest)[0], 10)
  {
    var d := NatToString(m);
    var u := d + rest;
    DigitRunOfNumeral(d, rest, 10);
    NatToStringValue(m);
    assert ParseDigits(u, 10) == Some(m);
    if |u| >= 2 && u[0] == '0' {
      assert |d| == 1;
      assert u[1] == rest[0];
    }
  }

  /** The round trip `parseInt(String(n)) == n`. */
  lemma ParseIntRoundTrip(n: int)
    ensures ParseInt(IntToString(n)) == Some(n)
  {
    ParseIntOfNumeral(n, []);
    assert IntToString(n) + [] == IntToString(n);
  }

  /** The empty value of a placeholder option parses to `NaN`. */
  lemma ParseIntEmpty()
    ensures ParseInt("") == None
  {
  }

  /** Leading whitespace never changes what `parseInt` reads. */
  lemma ParseIntSkipsSpaces(ws: string, s: string)
    requires IsBlank(ws)
    ensures ParseInt(ws + s) == ParseInt(s)
  {
    TrimStartSkipsBlank(ws, s);
  }

  lemma {:induction false} TrimStartSkipsBlank(ws: string, s: string)
    requires IsBlank(ws)
    ensures TrimStart(ws + s) == TrimStart(s)
  {
    if |ws| > 0 {
      assert (ws + s)[1..] == ws[1..] + s;
      TrimStartSkipsBlank(ws[1..], s);
    } else {
      assert ws + s == s;
    }
  }
}

=== FILE: list_page.dfy ===
/** The state the three list pages (Clients, Programs, Enrollments) keep, the
    events that change it, and what they render. Network calls appear as
    their settled outcomes. */
module ListPage {
  import opened Base

  /** The page's React state. The Enrollments page has no form, so its
      `showForm` stays false. */
  datatype Page<T> = Page(items: seq<T>, isLoading: bool, query: string, showForm: bool)

  /** The state on mount: an empty list, loading, an empty query, no form. */
  function Mount<T>(): (p: Page<T>)
    ensures p.items == [] && p.isLoading && p.query == "" && !p.showForm
  {
    Page([], true, "", false)
  }

  /** The mount-time fetch settles. A successful load replaces the list
      wholesale; a failed one is only logged. Loading ends either way. */
  function Load<T>(p: Page<T>, fetched: Fetched<seq<T>>): (q: Page<T>)
    ensures !q.isLoading
    ensures q.query == p.query && q.showForm == p.showForm
    ensures q.items == (if fetched.Ok? then fetched.value else p.items)
  {
    match fetched
    case Ok(items) => p.(items := items, isLoading := false)
    case Failed => p.(isLoading := false)
  }

  /** A create request settles (`handleCreateClient`/`handleCreateProgram`).
      On success the returned record is appended after the existing ones,
      which stay as they were, and the form closes; on failure nothing
      changes. */
  function Create<T>(p: Page<T>, created: Fetched<T>): (q: Page<T>)
    ensures created.Failed? ==> q == p
    ensures created.Ok? ==>
      && |q.items| == |p.items| + 1
      && q.items[..|p.items|] == p.items
      && q.items[|p.items|] == created.value
      && !q.showForm
      && q.isLoading == p.isLoading && q.query == p.query
  {
    match created
    case Ok(item) => p.(items := p.items + [item], showForm := false)
    case Failed => p
  }

  /** The "Register"/"New"/"Cancel" button. */
  function ToggleForm<T>(p: Page<T>): (q: Page<T>)
    ensures q.showForm != p.showForm
    ensures q.(showForm := p.showForm) == p
  {
    p.(showForm := !p.showForm)
  }

  /** Typing in the search box. */
  function SetQuery<T>(p: Page<T>, query: string): (q: Page<T>)
    ensures q.query == query && q.(query := p.query) == p
  {
    p.(query := query)
  }

  /** Pressing the toggle twice restores the page. */
  lemma ToggleTwice<T>(p: Page<T>)
    ensures ToggleForm(ToggleForm(p)) == p
  {
  }

  datatype View<T> = Loading | Table(rows: seq<T>) | Empty(message: string)

  /** What the page shows: a loading banner, the table of filtered `rows`, or
      an empty-state message that only depends on whether a query is typed. */
  function Render<T>(p: Page<T>, rows: seq<T>, noMatch: string, noneYet: string): (v: View<T>)
    ensures v.Loading? <==> p.isLoading
    ensures v.Table? <==> !p.isLoading && |rows| > 0
    ensures v.Table? ==> v.rows == rows
    ensures v.Empty? ==> v.message == (if p.query != "" then noMatch else noneYet)
  {
    if p.isLoading then Loading
    else if |rows| > 0 then Table(rows)
    else Empty(if p.query != "" then noMatch else noneYet)
  }
}

=== FILE: mock_server.dfy ===
/** The Express mock back end: an in-memory list of clients that grows by
    POST, a fixed list of programs, and three read routes. */
module MockServer {
  import Base
  import opened JsNumber

  /** The JSON properties of a client other than `id`. */
  type Fields = m: map<string, string> | "id" !in m witness map[]

  /** A stored client: its `id` and the remaining JSON properties. */
  datatype ClientRecord = ClientRecord(id: int, fields: Fields)

  datatype ProgramRecord = ProgramRecord(id: int, name: string, description: string)

  /** A POST body: an optional `id` property and the other properties. */
  datatype ClientBody = ClientBody(id: Base.Option<int>, fields: Fields)

  datatype Store = Store(clients: seq<ClientRecord>, programs: seq<ProgramRecord>)

  /** A response: 200 with a body, 201 with the created record, or 404 with
      a message. */
  datatype Response<T> = Ok(body: T) | Created(body: T) | NotFound(message: string) {
    function Status(): int {
      match this
      case Ok(_) => 200
      case Created(_) => 201
      case NotFound(_) => 404
    }
  }

  /** The store the server starts with. */
  const Seed: Store := Store(
    [ ClientRecord(1, map["first_name" := "John", "last_name" := "Doe",
                          "date_of_birth" := "1990-01-01", "gender" := "Male"]),
      ClientRecord(2, map["first_name" := "Jane", "last_name" := "Smith",
                          "date_of_birth" := "1992-05-15", "gender" := "Female"]) ],
    [ ProgramRecord(1, "TB Program", "Tuberculosis treatment and prevention"),
      ProgramRecord(2, "Malaria Control", "Malaria prevention and treatment") ])

  /** GET /api/clients: the whole list, in insertion order. */
  function ListClients(st: Store): (r: Response<seq<ClientRecord>>)
    ensures r.Status() == 200 && r.body == st.clients
  {
    Ok(st.clients)
  }

  /** GET /api/health_programs: the program list. */
  function ListPrograms(st: Store): (r: Response<seq<ProgramRecord>>)
    ensures r.Status() == 200 && r.body == st.programs
  {
    Ok(st.programs)
  }

  /** `clients.find(c => c.id === n)`: the position of the first client with
      id `n`; `NaN` equals nothing. */
  function FindIndex(clients: seq<ClientRecord>, n: Base.Option<int>): (k: Base.Option<nat>)
    ensures k.Some? ==> k.value < |clients| && n.Some? && clients[k.value].id == n.value
    ensures k.Some? ==> forall j :: 0 <= j < k.value ==> clients[j].id != n.value
    ensures k.None? ==> n.None? || forall j :: 0 <= j < |clients| ==> clients[j].id != n.value
  {
    if n.None? || |clients| == 0 then Base.None
    else if clients[0].id == n.value then Base.Some(0)
    else
      match FindIndex(clients[1..], n)
      case None => Base.None
      case Some(k) => Base.Some(k + 1)
  }

  /** GET /api/clients/:id: the first client whose id equals
      `parseInt(param)`, or 404 "Client not found". */
  function GetClient(st: Store, param: string): (r: Response<ClientRecord>)
    ensures r.Ok? || r == NotFound("Client not found")
    ensures r.Ok? ==> r.body in st.clients && ParseInt(param) == Base.Some(r.body.id)
    ensures r.Ok? ==> exists k ::
      && 0 <= k < |st.clients| && r.body == st.clients[k]
      && forall j :: 0 <= j < k ==> Base.Some(st.clients[j].id) != ParseInt(param)
    ensures r.NotFound? ==> forall c :: c in st.clients ==> ParseInt(param) != Base.Some(c.id)
  {
    match FindIndex(st.clients, ParseInt(param))
    case Some(k) => Ok(st.clients[k])
    case None => NotFound("Client not found")
  }

  /** POST /api/clients: `{ id: clients.length + 1, ...body }` is appended and
      returned with 201. A body that carries its own `id` overrides the
      assigned one. Nothing else in the store changes. */
  function PostClient(st: Store, body: ClientBody): (r: (Store, Response<ClientRecord>))
    ensures |r.0.clients| == |st.clients| + 1
    ensures r.0.clients[..|st.clients|] == st.clients
    ensures r.0.programs == st.programs
    ensures r.1.Status() == 201 && r.1.body == r.0.clients[|st.clients|]
    ensures r.1.body.fields == body.fields
    ensures r.1.body.id == (if body.id.Some? then body.id.value else |st.clients| + 1)
  {
    var id := if body.id.Some? then body.id.value else |st.clients| + 1;
    var record := ClientRecord(id, body.fields);
    (st.(clients := st.clients + [record]), Created(record))
  }

  /** The id invariant of the seed: the client at position `k` has id `k + 1`. */
  ghost predicate IdsArePositions(clients: seq<ClientRecord>) {
    forall k :: 0 <= k < |clients| ==> clients[k].id == k + 1
  }

  /** Positional ids are unique. */
  lemma PositionalIdsUnique(clients: seq<ClientRecord>)
    requires IdsArePositions(clients)
    ensures forall j, k :: 0 <= j < k < |clients| ==> clients[j].id != clients[k].id
  {
  }

  lemma SeedIdsArePositions()
    ensures IdsArePositions(Seed.clients)
  {
  }

  /** A POST whose body has no `id` keeps ids positional. */
  lemma PostKeepsIdsPositional(st: Store, body: ClientBody)
    requires IdsArePositions(st.clients) && body.id.None?
    ensures IdsArePositions(PostClient(st, body).0.clients)
  {
    var after := PostClient(st, body).0.clients;
    forall k | 0 <= k < |after|
      ensures after[k].id == k + 1
    {
      if k < |st.clients| {
        assert after[k] == after[..|st.clients|][k];
      }
    }
  }

  /** A run of POSTs, each answered before the next: the `i`-th body becomes
      the `i`-th new record, in order, with the id POST assigns it. */
  function PostAll(st: Store, bodies: seq<ClientBody>): (r: Store)
    ensures r.programs == st.programs
    ensures |r.clients| == |st.clients| + |bodies|
    ensures r.clients[..|st.clients|] == st.clients
    ensures forall i :: 0 <= i < |bodies| ==>
      r.clients[|st.clients| + i] == AssignedRecord(|st.clients| + i, bodies[i])
    decreases |bodies|
  {
    if |bodies| == 0 then st
    else
      var next := PostClient(st, bodies[0]).0;
      assert next.clients[..|st.clients|] == st.clients;
      var r := PostAll(next, bodies[1..]);
      assert r.clients[..|st.clients|] == r.clients[..|next.clients|][..|st.clients|];
      assert r.clients[|st.clients|] == r.clients[..|next.clients|][|st.clients|];
      r
  }

  /** The record POST stores for `body` when `n` clients are already stored. */
  function AssignedRecord(n: nat, body: ClientBody): ClientRecord {
    ClientRecord(if body.id.Some? then body.id.value else n + 1, body.fields)
  }

  /** GET of the list after a run of POSTs from the seed: the two seed
      clients, then one record per body in the order posted; bodies without
      an id get ids 3, 4, ... by position. */
  lemma ListAfterPosts(bodies: seq<ClientBody>)
    ensures var list := ListClients(PostAll(Seed, bodies)).body;
      && |list| == 2 + |bodies|
      && list[..2] == Seed.clients
      && forall i :: 0 <= i < |bodies| ==>
           list[2 + i].fields == bodies[i].fields
           && (bodies[i].id.None? ==> list[2 + i].id == 3 + i)
  {
  }

  /** Starting from the seed, POSTs without body ids leave the ids exactly
      1..n, and the programs untouched. */
  lemma {:induction false} PostAllKeepsIdsPositional(st: Store, bodies: seq<ClientBody>)
    requires IdsArePositions(st.clients)
    requires forall i :: 0 <= i < |bodies| ==> bodies[i].id.None?
    ensures IdsArePositions(PostAll(st, bodies).clients)
    decreases |bodies|
  {
    if |bodies| > 0 {
      PostKeepsIdsPositional(st, bodies[0]);
      PostAllKeepsIdsPositional(PostClient(st, bodies[0]).0, bodies[1..]);
    }
  }

  /** With positional ids, GET of `String(k)` returns the `k`-th client. */
  lemma GetByPosition(st: Store, k: int)
    requires IdsArePositions(st.clients) && 1 <= k <= |st.clients|
    ensures GetClient(st, IntToString(k)) == Ok(st.clients[k - 1])
  {
    ParseIntRoundTrip(k);
    PositionalIdsUnique(st.clients);
  }

  /** A body-supplied id can duplicate an existing one; GET then keeps
      returning the earlier client, and the posted one is unreachable by id. */
  lemma BodyIdCanDuplicate(body: ClientBody)
    requires body.id == Base.Some(1)
    ensures var st := PostClient(Seed, body).0;
      && st.clients[0].id == st.clients[2].id
      && GetClient(st, "1") == Ok(Seed.clients[0])
  {
    ParseIntRoundTrip(1);
    assert IntToString(1) == "1";
  }

  /** `parseInt` reads a leading number and ignores the rest, so
      `/api/clients/2abc` is answered like `/api/clients/2`. */
  lemma TrailingTextIgnored(st: Store, k: int, rest: string)
    requires rest == [] || !IsRadixDigit(rest[0], 10)
    requires k == 0 && rest != [] ==> rest[0] != 'x' && rest[0] != 'X'
    ensures GetClient(st, IntToString(k) + rest) == GetClient(st, IntToString(k))
  {
    ParseIntOfNumeral(k, rest);
    ParseIntRoundTrip(k);
  }
}

=== FILE: program_form.dfy ===
/** The health-program form: two required text fields and the submit gate. */
module ProgramForm {
  import opened Base
  import opened Text

  datatype ProgramFormData = ProgramFormData(name: string, description: string)

  datatype ErrorKey = NameKey | DescriptionKey {
    /** The property name the error object uses. */
    function Name(): string {
      match this
      case NameKey => "name"
      case DescriptionKey => "description"
    }
  }

  function Message(k: ErrorKey): string {
    match k
    case NameKey => "Program name is required"
    case DescriptionKey => "Description is required"
  }

  /** The test `validate` applies to the field behind key `k`: `!x.trim()`. */
  predicate Fails(f: ProgramFormData, k: ErrorKey) {
    match k
    case NameKey => Trim(f.name) == ""
    case DescriptionKey => Trim(f.description) == ""
  }

  /** `validate`: the two fields are checked independently. */
  function Validate(f: ProgramFormData): (errors: map<ErrorKey, string>)
    ensures NameKey in errors <==> IsBlank(f.name)
    ensures DescriptionKey in errors <==> IsBlank(f.description)
    ensures forall k :: k in errors ==> errors[k] == Message(k)
  {
    TrimEmptyIffBlank(f.name);
    TrimEmptyIffBlank(f.description);
    var errors := map k | k in {NameKey, DescriptionKey} && Fails(f, k) :: Message(k);
    assert NameKey in errors <==> Fails(f, NameKey);
    assert DescriptionKey in errors <==> Fails(f, DescriptionKey);
    errors
  }

  predicate IsValid(f: ProgramFormData) {
    |Validate(f)| == 0
  }

  /** Valid exactly when neither field is blank. */
  lemma ValidIff(f: ProgramFormData)
    ensures IsValid(f) <==> !IsBlank(f.name) && !IsBlank(f.description)
  {
    var e := Validate(f);
    if |e| == 0 {
      assert e.Keys == {};
    } else {
      var k :| k in e.Keys;
    }
  }

  /** Both errors are reported together when both fields are blank. */
  lemma BothErrorsTogether(ws: string)
    requires IsBlank(ws)
    ensures Validate(ProgramFormData(ws, ws)) ==
      map[NameKey := "Program name is required", DescriptionKey := "Description is required"]
  {
  }

  /** `handleSubmit`: `onSubmit` gets `{ name, description }` exactly as typed,
      untrimmed, and is not called when the form is invalid. */
  function Submit(f: ProgramFormData): (r: Submission<ErrorKey, ProgramFormData>)
    ensures r.Submitted? <==> !IsBlank(f.name) && !IsBlank(f.description)
    ensures r.Submitted? ==> r.data == f
    ensures r.Blocked? ==> r.errors == Validate(f) && |r.errors| > 0
    ensures !r.Aborted?
  {
    ValidIff(f);
    if IsValid(f) then Submitted(f) else Blocked(Validate(f))
  }

  /** Surrounding spaces survive into the submitted data. */
  lemma SubmitKeepsSpaces()
    ensures Submit(ProgramFormData(" TB ", "care")) == Submitted(ProgramFormData(" TB ", "care"))
  {
    assert !IsSpace(" TB "[1]);
    assert !IsSpace("care"[0]);
  }
}

=== FILE: programs_page.dfy ===
/** The health-program registry page: its search filter, program creation
    and empty-state message. */
module ProgramsPage {
  import opened Base
  import opened Text
  import Search
  import ListPage

  datatype Program = Program(id: int, name: string, description: string, createdAt: string)

  const NoMatchMessage := "No programs match your search."
  const NoProgramsMessage := "No programs found. Create your first one!"

  /** The test of `filteredPrograms`: the lowered name or the lowered
      description includes the lowered query. */
  predicate Matches(p: Program, query: string): (b: bool)
    ensures query == "" ==> b
    ensures b ==> |query| <= |p.name| || |query| <= |p.description|
  {
    ContainsEmpty(ToLower(p.name));
    || Contains(ToLower(p.name), ToLower(query))
    || Contains(ToLower(p.description), ToLower(query))
  }

  /** `filteredPrograms`. */
  function Filtered(programs: seq<Program>, query: string): (r: seq<Program>)
    ensures forall p :: p in r <==> p in programs && Matches(p, query)
  {
    Search.Filter(programs, p => Matches(p, query))
  }

  /** The filtered list is the input with non-matching programs dropped:
      order is kept and every matching position survives. */
  lemma FilteredIsOrderedSubsequence(programs: seq<Program>, query: string) returns (idx: seq<nat>)
    ensures Search.IsEmbedding(Filtered(programs, query), programs, idx)
    ensures forall i :: 0 <= i < |programs| ==> (i in idx <==> Matches(programs[i], query))
  {
    idx := Search.FilterEmbedding(programs, p => Matches(p, query));
  }

  /** With an empty query every program is listed. */
  lemma EmptyQueryKeepsAll(programs: seq<Program>)
    ensures Filtered(programs, "") == programs
  {
    forall i | 0 <= i < |programs|
      ensures Matches(programs[i], "")
    {
      ContainsEmpty(ToLower(programs[i].name));
    }
    Search.FilterKeepsAll(programs, p => Matches(p, ""));
  }

  /** Every searched field is lowered, so the query's case never matters. */
  lemma SearchIgnoresQueryCase(programs: seq<Program>, query: string)
    ensures Filtered(programs, ToLower(query)) == Filtered(programs, query)
  {
    ToLowerIdempotent(query);
    Search.FilterAgrees(programs, p => Matches(p, ToLower(query)), p => Matches(p, query));
  }

  /** After a successful create, the search shows the new program at the end
      exactly when it matches the current query. */
  lemma CreateThenSearch(page: ListPage.Page<Program>, p: Program)
    ensures Filtered(ListPage.Create(page, Ok(p)).items, page.query)
         == Filtered(page.items, page.query) + (if Matches(p, page.query) then [p] else [])
  {
    Search.FilterAppend(page.items, p, (x: Program) => Matches(x, page.query));
  }

  /** What the page shows for its current state: the loading banner while
      loading, then the table of exactly the matching programs in list order,
      or an empty state when no program matches. */
  function View(page: ListPage.Page<Program>): (v: ListPage.View<Program>)
    ensures v.Loading? <==> page.isLoading
    ensures v.Table? ==> v.rows == Filtered(page.items, page.query)
    ensures v.Table? ==> forall p :: p in v.rows <==> p in page.items && Matches(p, page.query)
    ensures v.Empty? <==> !page.isLoading && forall p :: p in page.items ==> !Matches(p, page.query)
  {
    var rows := Filtered(page.items, page.query);
    assert rows != [] ==> rows[0] in rows;
    ListPage.Render(page, rows, NoMatchMessage, NoProgramsMessage)
  }

  /** "No programs match" is shown exactly when a typed query matches nothing;
      "No programs found" is shown only when the list itself is empty. */
  lemma EmptyStateMessages(page: ListPage.Page<Program>)
    ensures View(page) == ListPage.Empty(NoMatchMessage) <==>
      !page.isLoading && page.query != "" && Filtered(page.items, page.query) == []
    ensures View(page) == ListPage.Empty(NoProgramsMessage) ==> page.items == []
  {
    if page.query == "" {
      EmptyQueryKeepsAll(page.items);
    }
  }
}

=== FILE: search.dfy ===
/** `Array.prototype.filter`, which every search box applies to its list. */
module Search {

  /** The elements of `xs` that satisfy `keep`, in their original order. */
  function Filter<T>(xs: seq<T>, keep: T -> bool): (r: seq<T>)
    ensures |r| <= |xs|
    ensures forall x :: x in r ==> x in xs && keep(x)
    ensures forall i :: 0 <= i < |xs| && keep(xs[i]) ==> xs[i] in r
  {
    if |xs| == 0 then []
    else (if keep(xs[0]) then [xs[0]] else []) + Filter(xs[1..], keep)
  }

  /** `idx` lists strictly increasing positions of `b` holding the elements of
      `a`, in order: `a` is `b` with some elements dropped. */
  ghost predicate IsEmbedding<T>(a: seq<T>, b: seq<T>, idx: seq<nat>) {
    && |idx| == |a|
    && (forall k :: 0 <= k < |idx| ==> idx[k] < |b| && a[k] == b[idx[k]])
    && (forall k, l :: 0 <= k < l < |idx| ==> idx[k] < idx[l])
  }

  /** The filtered list is an order-preserving subsequence of the input, and
      the positions it keeps are exactly those whose element satisfies `keep`. */
  lemma {:induction false} FilterEmbedding<T>(xs: seq<T>, keep: T -> bool) returns (idx: seq<nat>)
    ensures IsEmbedding(Filter(xs, keep), xs, idx)
    ensures forall i :: 0 <= i < |xs| ==> (i in idx <==> keep(xs[i]))
  {
    if |xs| == 0 {
      idx := [];
    } else {
      var tail := Filter(xs[1..], keep);
      var rest := FilterEmbedding(xs[1..], keep);
      var shifted := Shift(rest);
      ShiftEmbedding(tail, xs, rest);
      if keep(xs[0]) {
        idx := [0] + shifted;
        assert Filter(xs, keep) == [xs[0]] + tail;
      } else {
        idx := shifted;
        assert Filter(xs, keep) == tail;
      }
      ShiftKeepsPositions(xs, keep, rest, idx);
    }
  }

  /** The positions kept in the tail, shifted, are the positions kept in
      `xs` after the first. */
  lemma ShiftKeepsPositions<T>(xs: seq<T>, keep: T -> bool, rest: seq<nat>, idx: seq<nat>)
    requires |xs| > 0
    requires forall i :: 0 <= i < |xs| - 1 ==> (i in rest <==> keep(xs[1..][i]))
    requires idx == (if keep(xs[0]) then [0] + Shift(rest) else Shift(rest))
    ensures forall i :: 0 <= i < |xs| ==> (i in idx <==> keep(xs[i]))
  {
    var shifted := Shift(rest);
    assert 0 !in shifted;
    forall i | 0 < i < |xs|
      ensures i in idx <==> keep(xs[i])
    {
      assert xs[i] == xs[1..][i - 1];
      if i - 1 in rest {
        var k :| 0 <= k < |rest| && rest[k] == i - 1;
        assert shifted[k] == i;
      }
      assert i in shifted <==> i - 1 in rest;
    }
  }

  /** Every position moved one to the right. */
  function Shift(idx: seq<nat>): (r: seq<nat>)
    ensures |r| == |idx|
    ensures forall k :: 0 <= k < |idx| ==> r[k] == idx[k] + 1
  {
    seq(|idx|, k requires 0 <= k < |idx| => idx[k] + 1)
  }

  /** An embedding into the tail of `b` shifts to an embedding into `b`,
      and one that also takes the head stays an embedding. */
  lemma ShiftEmbedding<T>(a: seq<T>, b: seq<T>, idx: seq<nat>)
    requires |b| > 0 && IsEmbedding(a, b[1..], idx)
    ensures IsEmbedding(a, b, Shift(idx))
    ensures IsEmbedding([b[0]] + a, b, [0] + Shift(idx))
  {
    var s := Shift(idx);
    forall k | 0 <= k < |s|
      ensures s[k] < |b| && a[k] == b[s[k]]
    {
      assert b[1..][idx[k]] == b[idx[k] + 1];
    }
    var a' := [b[0]] + a;
    var s' := [0] + s;
    forall k | 0 <= k < |s'|
      ensures s'[k] < |b| && a'[k] == b[s'[k]]
    {
      if k > 0 {
        assert a'[k] == a[k - 1] && s'[k] == s[k - 1];
      }
    }
  }

  /** A list whose every element passes comes back unchanged. */
  lemma {:induction false} FilterKeepsAll<T>(xs: seq<T>, keep: T -> bool)
    requires forall i :: 0 <= i < |xs| ==> keep(xs[i])
    ensures Filter(xs, keep) == xs
  {
    if |xs| > 0 {
      FilterKeepsAll(xs[1..], keep);
    }
  }

  /** Two tests that agree on every element filter alike. */
  lemma {:induction false} FilterAgrees<T>(xs: seq<T>, p: T -> bool, q: T -> bool)
    requires forall i :: 0 <= i < |xs| ==> p(xs[i]) == q(xs[i])
    ensures Filter(xs, p) == Filter(xs, q)
  {
    if |xs| > 0 {
      FilterAgrees(xs[1..], p, q);
    }
  }

  /** Appending one element appends it to the filtered list exactly when it
      passes. */
  lemma {:induction false} FilterAppend<T>(xs: seq<T>, x: T, keep: T -> bool)
    ensures Filter(xs + [x], keep) == Filter(xs, keep) + (if keep(x) then [x] else [])
  {
    if |xs| == 0 {
      assert xs + [x] == [x];
    } else {
      var ys := xs + [x];
      assert ys[0] == xs[0];
      assert ys[1..] == xs[1..] + [x];
      FilterAppend(xs[1..], x, keep);
      calc {
        Filter(ys, keep);
        (if keep(xs[0]) then [xs[0]] else []) + Filter(xs[1..] + [x], keep);
        (if keep(xs[0]) then [xs[0]] else []) + (Filter(xs[1..], keep) + (if keep(x) then [x] else []));
        ((if keep(xs[0]) then [xs[0]] else []) + Filter(xs[1..], keep)) + (if keep(x) then [x] else []);
      }
    }
  }

  /** Two lists of equal length whose elements get the same verdict position
      by position filter down to lists of equal length. */
  lemma {:induction false} FilterSameVerdicts<T>(xs: seq<T>, ys: seq<T>, p: T -> bool, q: T -> bool)
    requires |xs| == |ys|
    requires forall i :: 0 <= i < |xs| ==> p(xs[i]) == q(ys[i])
    ensures |Filter(xs, p)| == |Filter(ys, q)|
  {
    if |xs| > 0 {
      assert p(xs[0]) == q(ys[0]);
      FilterSameVerdicts(xs[1..], ys[1..], p, q);
    }
  }
}

=== FILE: status_badge.dfy ===
/** The badge an enrollment's status is drawn with, on both the enrollment
    list and the client detail page. */
module StatusBadge {
  import EnrollmentForm

  datatype Variant = Default | Secondary

  /** `status === "Active" ? "default" : "secondary"`. */
  function BadgeVariant(status: string): (v: Variant)
    ensures v == Default <==> status == "Active"
  {
    if status == "Active" then Default else Secondary
  }

  /** The comparison is case-sensitive: a lower-case "active" is secondary. */
  lemma CaseSensitive()
    ensures BadgeVariant("active") == Secondary
  {
  }

  /** Of the statuses the enrollment form offers, only the first, "Active",
      gets the default badge. */
  lemma OnlyActiveIsDefault()
    ensures forall i :: 0 <= i < |EnrollmentForm.Statuses| ==>
      (BadgeVariant(EnrollmentForm.Statuses[i]) == Default <==> i == 0)
  {
  }
}

=== FILE: text.dfy ===
/** The JavaScript string primitives the forms and the search boxes rely on:
    `trim`, `toLowerCase`, `includes`, and the whitespace class of `\s`/`\S`. */
module Text {

  /** JavaScript's WhiteSpace and LineTerminator code points: exactly what
      `String.prototype.trim` strips and what the regular-expression class `\s`
      matches (TAB, LF, VT, FF, CR, SPACE, NBSP, OGHAM SPACE MARK, the spaces
      U+2000..U+200A, LINE and PARAGRAPH SEPARATOR, NARROW NBSP, MEDIUM
      MATHEMATICAL SPACE, IDEOGRAPHIC SPACE and the byte-order mark). */
  predicate IsSpace(c: char) {
    || ('\t' <= c <= '\r')
    || c == ' '
    || c == '\U{00A0}'
    || c == '\U{1680}'
    || ('\U{2000}' <= c <= '\U{200A}')
    || c == '\U{2028}'
    || c == '\U{2029}'
    || c == '\U{202F}'
    || c == '\U{205F}'
    || c == '\U{3000}'
    || c == '\U{FEFF}'
  }

  /** Every character of `s` is whitespace (the empty string included). */
  predicate IsBlank(s: string) {
    forall i :: 0 <= i < |s| ==> IsSpace(s[i])
  }

  /** `s` with its leading whitespace removed. */
  function TrimStart(s: string): (r: string)
    ensures |r| <= |s| && r == s[|s| - |r|..]
    ensures IsBlank(s[..|s| - |r|])
    ensures r == [] || !IsSpace(r[0])
  {
    if |s| > 0 && IsSpace(s[0]) then
      var r := TrimStart(s[1..]);
      BlankPrefixGrows(s, r);
      r
    else s
  }

  /** `s` with its trailing whitespace removed. */
  function TrimEnd(s: string): (r: string)
    ensures |r| <= |s| && r == s[..|r|]
    ensures IsBlank(s[|r|..])
    ensures r == [] || !IsSpace(r[|r| - 1])
  {
    if |s| > 0 && IsSpace(s[|s| - 1]) then
      var r := TrimEnd(s[..|s| - 1]);
      BlankSuffixGrows(s, r);
      r
    else s
  }

  /** A suffix of `s[1..]` behind a blank cut is a suffix of `s` behind a
      blank cut, when `s[0]` is whitespace too. */
  lemma BlankPrefixGrows(s: string, r: string)
    requires |s| > 0 && IsSpace(s[0])
    requires |r| <= |s| - 1 && r == s[1..][|s| - 1 - |r|..] && IsBlank(s[1..][..|s| - 1 - |r|])
    ensures r == s[|s| - |r|..] && IsBlank(s[..|s| - |r|])
  {
    forall i | 1 <= i < |s| - |r|
      ensures IsSpace(s[i])
    {
      assert s[i] == s[1..][..|s| - 1 - |r|][i - 1];
    }
  }

  /** The mirror image of `BlankPrefixGrows`, for a whitespace last character. */
  lemma BlankSuffixGrows(s: string, r: string)
    requires |s| > 0 && IsSpace(s[|s| - 1])
    requires |r| <= |s| - 1 && r == s[..|s| - 1][..|r|] && IsBlank(s[..|s| - 1][|r|..])
    ensures r == s[..|r|] && IsBlank(s[|r|..])
  {
    forall i | |r| <= i < |s| - 1
      ensures IsSpace(s[i])
    {
      assert s[i] == s[..|s| - 1][|r|..][i - |r|];
    }
  }

  /** `String.prototype.trim`: the one run of `s` that neither starts nor
      ends with whitespace and leaves only whitespace on either side. */
  function Trim(s: string): (r: string)
    ensures exists i :: OccursAt(s, r, i) && IsBlank(s[..i]) && IsBlank(s[i + |r|..])
    ensures r == [] || (!IsSpace(r[0]) && !IsSpace(r[|r| - 1]))
  {
    var t := TrimStart(s);
    var r := TrimEnd(t);
    TrimSplit(s, t, r);
    assert r != [] ==> r[0] == t[0];
    r
  }

  /** A run `r` that starts `t`, which in turn ends `s`, with only whitespace
      cut away on both sides, sits in `s` right after the leading cut. */
  lemma TrimSplit(s: string, t: string, r: string)
    requires |t| <= |s| && t == s[|s| - |t|..] && IsBlank(s[..|s| - |t|])
    requires |r| <= |t| && r == t[..|r|] && IsBlank(t[|r|..])
    ensures var i := |s| - |t|;
      OccursAt(s, r, i) && IsBlank(s[..i]) && IsBlank(s[i + |r|..])
  {
    var i := |s| - |t|;
    assert s[i..i + |r|] == t[..|r|];
    assert s[i + |r|..] == t[|r|..];
  }

  /** The validators' test `!s.trim()`: the trimmed string is empty exactly when
      the whole string is whitespace. */
  lemma TrimEmptyIffBlank(s: string)
    ensures Trim(s) == "" <==> IsBlank(s)
  {
    var t := TrimStart(s);
    if Trim(s) == "" {
      assert t == [];
      assert s[..|s|] == s;
    }
  }

  /** Lowering of one character. Only ASCII letters are folded; the rest of
      Unicode case mapping is not part of this model. */
  function LowerChar(c: char): char {
    if 'A' <= c <= 'Z' then (c as int + ('a' as int - 'A' as int)) as char else c
  }

  /** `String.prototype.toLowerCase`, folded as `LowerChar` does. */
  function ToLower(s: string): (r: string)
    ensures |r| == |s|
    ensures forall i :: 0 <= i < |s| ==> r[i] == LowerChar(s[i])
  {
    if |s| == 0 then [] else [LowerChar(s[0])] + ToLower(s[1..])
  }

  /** Lowering twice is lowering once, so a query lowered before the search
      and lowered again inside it gives the same text. */
  lemma ToLowerIdempotent(s: string)
    ensures ToLower(ToLower(s)) == ToLower(s)
  {
  }

  /** `s.includes(t)`: `t` occurs as a contiguous run somewhere in `s`. */
  predicate Contains(s: string, t: string) {
    exists i | 0 <= i <= |s| - |t| :: OccursAt(s, t, i)
  }

  /** `t` occurs in `s` starting at position `i`. */
  predicate OccursAt(s: string, t: string, i: int) {
    0 <= i <= |s| - |t| && s[i..i + |t|] == t
  }

  /** Every string includes the empty string. */
  lemma ContainsEmpty(s: string)
    ensures Contains(s, "")
  {
    assert OccursAt(s, "", 0);
  }

  /** The left-to-right scan behind `includes`: the first position where `t`
      occurs in `s`, or -1 when there is none. */
  method IndexOf(s: string, t: string) returns (k: int)
    ensures k == -1 || OccursAt(s, t, k)
    ensures k >= 0 ==> forall j :: 0 <= j < k ==> !OccursAt(s, t, j)
    ensures k == -1 <==> !Contains(s, t)
  {
    var i := 0;
    while i <= |s| - |t|
      invariant 0 <= i
      invariant i <= |s| - |t| + 1 || |t| > |s|
      invariant forall j :: 0 <= j < i ==> !OccursAt(s, t, j)
      decreases |s| - |t| + 1 - i
    {
      if s[i..i + |t|] == t {
        return i;
      }
      i := i + 1;
    }
    return -1;
  }

  /** `s.includes(t)` as the runtime computes it. */
  method Includes(s: string, t: string) returns (b: bool)
    ensures b <==> Contains(s, t)
  {
    var k := IndexOf(s, t);
    b := k >= 0;
  }
}
